=== FILE: README.md ===
# background-removal-js, modelled in Dafny

This project models the in-browser background-removal pipeline:

- **Bundle**: the fixed asset catalog (two ONNX models and four onnxruntime-web
  wasm backends), and `load` with its durable cache, fetch options, chunked
  progress reporting and size check.
- **OrtWebRt**: the onnxruntime-web adapter. It covers the four lazily filled
  wasm slots, the runtime settings derived from host capabilities, the error
  wrapping on session creation, and tensor marshalling for `runSession`.
- **Utils**: the interleaved-RGBA to planar float tensor packing, the
  proportional fit, and absolute-URL recognition.
- **Inference**: `runInference`. It resizes to 1024 x 1024, packs the
  tensor, runs the model, writes the mask into the alpha bytes and resizes
  back down.
- **Browser**: the public entry points. These are `removeBackground` with its
  configuration defaulting, the memoised `init`, and the `BackgroundRemoval`
  facade with its `loaded` and `controller` lifecycle.

`Wrappers` provides `Option` and `Result`. `Schema` holds the shared data:
`Image` (an RGBA byte buffer whose length is `4 * width * height`), `Tensor`,
`Config`, progress events and errors.

Platform services are function parameters of the operations that use them:

- `fetch` and `new URL(relative, base)` (Bundle.Network);
- image resampling (`imageDataResize`, Inference.Resizer);
- `URL.createObjectURL`;
- `ort.InferenceSession.create` and `session.run`;
- the host's feature detection (OrtWebRt.Host);
- image encoding;
- the memo key (`JSON.stringify`).

Durable storage (localforage) is a map threaded through the calls. The
module-level wasm slots are threaded the same way.

Float32 and double arithmetic is modelled with exact reals. A
`Uint8ClampedArray` store is modelled as clamping and rounding to the
nearest integer.

## Model

| member | source | states |
|---|---|---|
| Utils.Planar | src/utils.ts:60-79 | the packed tensor has 3·w·h values; value k is the normalised red of pixel k, k+w·h its green, k+2·w·h its blue |
| Utils.ImageDataToFloat32Array | src/utils.ts:60-79 | the single pass with i stepping by 4 and j by 1 writes exactly the planar layout, every pixel normalised as (byte − mean[c]) / std[c] |
| Utils.PlanarIgnoresAlpha | src/utils.ts:71-76 | two images with the same red, green and blue bytes give the same tensor: alpha never reaches the model |
| Utils.PlanarDenormalizes | src/utils.ts:72-75 | value · std + mean recovers every colour byte of every pixel |
| Utils.PlanarDefaultRange | src/utils.ts:62-63 | with the default mean 128 and std 256 every tensor value lies in [−0.5, 127/256] |
| Utils.CalculateProportionalSize | src/utils.ts:81-93 | both sides stay within the bounds; the side with the smaller ratio lands exactly on its bound; a source that already fits is never shrunk |
| Utils.ProportionalSizeExamples | src/utils.ts:87-92 | 800 x 600 fits 1024 x 1024 as 1024 x 768; 1024 x 1024 is unchanged |
| Utils.SchemeLength | src/utils.ts:96 | the longest prefix made of `[a-zA-Z+]` characters |
| Utils.IsAbsoluteURL | src/utils.ts:95-98 | a protocol-relative `//` URL is absolute; a URL whose first character is neither a scheme character nor `/` is not; an absolute URL contains a slash; IsAbsoluteURLMatchesPattern ties it to the regular expression in both directions |
| Utils.IsAbsoluteURLMatchesPattern | src/utils.ts:95-98 | the executable test `IsAbsoluteURL` accepts a URL exactly when it matches `^(?:[a-z+]+:)?//` case-insensitively (both directions) |
| Utils.AbsoluteURLExamples | src/utils.ts:95-98 | `//cdn/x` and `HTTPS://x` are absolute |
| Utils.RelativeURLExamples | src/utils.ts:95-98 | `/x`, `data:x` and `h2://x` are not absolute |
| Utils.EnsureAbsoluteURL | src/utils.ts:100-106 | an absolute URL is returned unchanged; any other is resolved against the page location; the result is absolute exactly when the URL or its resolution is |
| Utils.EnsureAbsoluteURLIdempotent | src/utils.ts:100-106 | when resolution is idempotent, as `new URL(u, base).href` is, a second application changes nothing, even for results such as `data:x` that are not absolute |
| Bundle.LastSegment | src/bundle.ts:82 | `split('/').pop()`: a suffix of the URL with no slash, preceded by a slash whenever it is not the whole URL |
| Bundle.AssetURL | src/bundle.ts:79-83 | a non-empty publicPath replaces the catalog URL by its file name resolved against publicPath, and a resolution that throws is an InvalidURL error; otherwise the catalog URL is used |
| Bundle.DefaultFetchOptions | src/bundle.ts:89-96 | the defaults hold `cache: force-cache` and the three headers; If-Modified-Since carries the stored date when there is one and is undefined otherwise |
| Bundle.MergeFetchOptions | src/bundle.ts:105-108 | the request options hold every default key and every user key, and a user key replaces the whole default value |
| Bundle.ProgressEvents | src/bundle.ts:170-179 | one event per chunk, keyed `fetch:<key>`, carrying the cumulative byte count and the catalog size |
| Bundle.ConcatPrefixGrows | src/bundle.ts:175-176 | the received length never decreases as chunks arrive |
| Bundle.ProgressIsCumulative | src/bundle.ts:166-179 | progress counts are non-decreasing, all report the catalog size as total, and the last equals the body's length |
| Bundle.FetchChunked | src/bundle.ts:158-181 | the read loop returns every chunk in order and emits exactly the cumulative progress events |
| Bundle.ReadBody | src/bundle.ts:114-138 | with progress, a null body is rejected and a body is read chunk by chunk with one event per chunk; without progress the chunks are joined with no events, and a null body gives the whole-response blob with its content type |
| Bundle.KeptLastModified | src/bundle.ts:110-112 | a date is kept exactly when the status is 200 and the Last-Modified header is present and non-empty, and it is that header |
| Bundle.Load | src/bundle.ts:78-156 | an unknown key fails; the URL is worked out before storage is read, and a failure there is returned with nothing requested; a stored file is returned with no request; a miss makes one request to the asset URL with the merged options and its outcome is exactly that download's; when fetch and body reading succeed, the body's events are emitted, and a body of the catalog size is returned and stored with its kept date under its key, no other key changing; a size mismatch reports both sizes; any failure leaves the store as it was |
| Bundle.Download | src/bundle.ts:105-154 | one request; a transport or body failure is returned with the store unchanged; the body's events are emitted; the result succeeds exactly when the body has the catalog size, and is then stored with the kept date under its key with no other key changed; a size mismatch reports both sizes |
| Bundle.LoadRejectsBadDownloads | src/bundle.ts:105-152 | on a miss, a failed fetch rejects with the transport error, a failed body read with its error, and a body whose size differs from the catalog's with a size mismatch naming both sizes; each leaves the store as it was |
| Bundle.LoadKeepsStoreConsistent | src/bundle.ts:140-152 | if every stored file has its catalog size, load keeps that so, and every file load returns has the catalog size |
| Bundle.LoadTwiceHits | src/bundle.ts:102-103 | after a successful load, a second load of the key makes no request and returns the same file |
| Bundle.RejectedDownloadRefetches | src/bundle.ts:140-152 | after a rejected download of a resolvable URL, the next load of the key goes to the network again |
| Bundle.LastModifiedOnlyFrom200 | src/bundle.ts:110-112 | after a successful download, the date load stores is the fetched response's Last-Modified header when the status is 200 and the header is non-empty, and absent otherwise |
| Bundle.Preload | src/bundle.ts:183-190 | the result is a copy of the six-entry catalog, and one load is started per key |
| Bundle.PreloadLaunchesKnownKeys | src/bundle.ts:183-190 | every load preload starts is for a catalog key, so none of them fails as an unknown asset |
| OrtWebRt.FillSlots | src/ort-web-rt.ts:18-26 | for any loader: filled slots are kept; success leaves all four filled; a rejection is reported after at least one load; nothing is loaded when all are filled |
| OrtWebRt.FillSlotsLoadsInOrder | src/ort-web-rt.ts:18-26 | the files loaded are exactly the empty slots' files in slot order on success, and a prefix of them ending at the rejected one otherwise |
| OrtWebRt.FillSlotsFromLoader | src/ort-web-rt.ts:18-26 | every slot the call fills holds a blob the loader resolved for that slot's file |
| OrtWebRt.FillSlotsFailsByRejection | src/ort-web-rt.ts:18-26 | the call fails only through the loader: its error is one the loader rejects the last file loaded with |
| OrtWebRt.FillSlotsWithoutRejection | src/ort-web-rt.ts:18-26 | with a loader that never rejects, the call never fails |
| OrtWebRt.NumThreads | src/ort-web-rt.ts:32 | half the hardware concurrency when cross-origin isolated, otherwise 1 |
| OrtWebRt.NumThreadsBounds | src/ort-web-rt.ts:32 | the thread count is positive unless an isolated host reports no cores, and never exceeds both one and the core count |
| OrtWebRt.NumThreadsCanBeFractional | src/ort-web-rt.ts:32 | an isolated host with 3 cores gets 1.5 threads, unrounded |
| OrtWebRt.DetectCapabilities | src/ort-web-rt.ts:28-35 | simd, threads, SharedArrayBuffer and WebGPU are the host's; the thread count is NumThreads of the host: positive unless an isolated host reports no cores, and 1 when not isolated |
| OrtWebRt.WasmPaths | src/ort-web-rt.ts:46-53 | one object URL per backend file, keyed by the file name |
| OrtWebRt.SessionErrorMessage | src/ort-web-rt.ts:68-71 | the message is the prefix `Failed to create session: `, then the cause, then the hint about publicPath |
| OrtWebRt.SessionErrorMessageInjective | src/ort-web-rt.ts:68-71 | distinct causes give distinct messages, so the cause can be read back |
| OrtWebRt.SessionErrorMentionsCause | src/ort-web-rt.ts:68-71 | the rethrown message contains the original cause and the word publicPath |
| OrtWebRt.CreateSession | src/ort-web-rt.ts:17-82 | for any loader: filled slots are reused; a rejected load ends the call before configuration; otherwise the empty slots' files are loaded in order and the environment takes the host's threads and simd, the configured proxy and the four object URLs; success returns the session the runtime created and revokes exactly the four wasm paths; a creation failure is wrapped and revokes nothing |
| OrtWebRt.CreateSessionFailsByRejection | src/ort-web-rt.ts:17-26 | the call stops before configuring the runtime only with an error the loader rejects the last file loaded with; with a loader that never rejects, the runtime is always configured |
| OrtWebRt.EmptySlotsLoadEveryFile | src/ort-web-rt.ts:9-26 | with every module-level slot still null, the files to load are all four backend files in order |
| OrtWebRt.FirstCreateLoadsEveryFile | src/ort-web-rt.ts:9-26 | the first session creation with `Bundle.load` as the loader loads all four backend files in order once the runtime is configured, and otherwise fails with `Bundle.load`'s rejection of the last file loaded |
| OrtWebRt.SecondCreateLoadsNothing | src/ort-web-rt.ts:9-26 | after a successful session creation, a later one downloads nothing and leaves storage unchanged |
| OrtWebRt.StartSession | src/ort-web-rt.ts:28-81 | with all slots filled, the environment is the host's threads and simd, the configured proxy and the slots' object URLs; the call succeeds exactly when the runtime creates a session, returns it, and revokes the four paths; a failure is wrapped and revokes nothing |
| OrtWebRt.RevokedURLs | src/ort-web-rt.ts:74-79 | the four revoked URLs are the wasm paths of the four backend files, in load order |
| OrtWebRt.Feeds | src/ort-web-rt.ts:88-95 | the feeds hold exactly the input names |
| OrtWebRt.FeedsLastWins | src/ort-web-rt.ts:89-95 | of several inputs with one name, the last one is fed, as a float32 tensor |
| OrtWebRt.CollectOutputs | src/ort-web-rt.ts:98-110 | succeeds exactly when every requested name was produced, returning them in request order as float32; otherwise reports the first missing name |
| OrtWebRt.RunSession | src/ort-web-rt.ts:83-111 | a rejected run is reported; a successful run's outputs are collected as CollectOutputs does, so each requested output is returned with its data and shape and a missing one is reported |
| Inference.ClampToByte | src/inference.ts:38 | values at or below 0 store 0, at or above 255 store 255, and others are rounded to within one half |
| Inference.MaskAlpha | src/inference.ts:36-38 | the stored alpha is 0 exactly when the pixel has no mask value or mask · 255 is below one half, and 255 exactly when mask · 255 is at least 254.5 |
| Inference.MaskAlphaRange | src/inference.ts:37-38 | a mask value at or below 0, or a missing one, gives alpha 0; at or above 1 gives 255; otherwise alpha is mask · 255 rounded to within one half |
| Inference.WithMask | src/inference.ts:33-39 | colour bytes are kept; the alpha of pixel k becomes mask[k] · 255, clamped |
| Inference.WriteMask | src/inference.ts:33-39 | the loop over i = 0, 4, 8, … writes exactly the masked buffer |
| Inference.MaskExtremes | src/inference.ts:35-39 | a mask of ones makes every pixel opaque, and a mask of zeros makes every pixel transparent |
| Inference.OutputSize | src/inference.ts:41-49 | each side is the proportional fit's or the source's, whichever is smaller, so it is no larger than the source, 1024 or the fit; a source within 1024 x 1024 keeps its size |
| Inference.OutputSizeCanBeZero | src/inference.ts:41-49 | a 1 x 2048 source gets a 0 x 1024 output size |
| Inference.OutputSizePositive | src/inference.ts:41-49 | in exact arithmetic, the output size has no zero side exactly when neither side of the source is more than 1024 times the other |
| Inference.ShortSideFit | src/utils.ts:81-93 | fitting a long x short source into 1024 x 1024 puts the long side on 1024, whichever way round the source is, and, in exact arithmetic, the short side is positive exactly when 1024 · short ≥ long |
| Inference.InputTensor | src/inference.ts:20-29 | the model input has shape [1, 3, 1024, 1024], type float32 and 3·1024² values |
| Inference.RunInference | src/inference.ts:9-53 | with no runtime or session, the source is returned after the start event; otherwise it succeeds exactly when the session run yields `output` and the output size has no zero side, a run failure is returned as is and a zero side as ResizeRejected; a success is the masked 1024 x 1024 image resized to the output size, followed by the end event; a failure emits only the start event |
| Inference.FullPathSucceeds | src/inference.ts:9-53 | in exact arithmetic, when the session yields `output` and neither side of the source is more than 1024 times the other, inference succeeds with exactly the start and end events under progress and none without |
| Inference.SmallSourceKeepsSize | src/inference.ts:41-51 | a source within 1024 x 1024 comes back at its own size |
| Browser.EffectiveConfig | src/browser.ts:44-66 | a missing configuration becomes the default (medium model, empty fetch options); in debug mode a logger is installed unless a progress callback exists; nothing else changes |
| Browser.RemoveBackground | src/browser.ts:40-85 | a source that does not convert to image data is rejected; otherwise inference runs with the effective configuration and its events are emitted; a successful result is encoded, a failed one is rejected with inference's error, and without a session the source itself is encoded |
| Browser.Init | src/browser.ts:25-32 | a key seen before returns the stored result, rejected or not, without building; a new key builds once and is stored; other keys are untouched |
| Browser.InitAll | src/browser.ts:32 | over a sequence of calls each value is the memo's entry for its key, every key is built at most once, only keys not already memoised are built, and each new key holds the `_init` result of the first configuration that produced it |
| Browser.EqualKeysShareOneInit | src/browser.ts:32 | two calls whose configurations serialise alike get the same result |
| Browser.NewFacade | src/browser.ts:93-98 | a new facade is not loaded, has a controller and no processor |
| Browser.LoadModel | src/browser.ts:100-107 | loaded is set even when init rejects; the processor is recorded only on success |
| Browser.WarmUp | src/browser.ts:109-112 | after warm-up the facade is loaded; it settles with init's rejection exactly when init rejects, and records the processor otherwise |
| Browser.RemoveBackgroundCall | src/browser.ts:114-124 | a loaded facade answers nothing; otherwise it sets loaded, keeps the configuration, records the processor when init resolves and keeps the old one when it rejects, runs, and clears the controller only when the run succeeds |
| Browser.Cancel | src/browser.ts:126-131 | the controller is cleared and nothing else changes |
| Browser.CancelIsIdempotent | src/browser.ts:126-131 | cancelling twice is the same as cancelling once |
| Browser.Replay | src/browser.ts:87-131 | one settlement per call, a cancel settles with nothing, and a loaded facade stays loaded |
| Browser.AtMostOneRemoval | src/browser.ts:114-124 | over any sequence of calls at most one removal call does work, and none does on a facade already loaded |
| Browser.WarmUpSilencesRemoval | src/browser.ts:109-124 | as written, a removal after warm-up answers nothing |
| Browser.RemoveBackgroundIntended | src/browser.ts:114-124 | the corrected removal always loads through the memoised init and returns the processed result or the init failure; the processor is recorded on success and kept on rejection |
| Browser.WarmUpKeepsRemoval | src/browser.ts:109-124 | with the corrected removal, warming up first does not change the answer |
| Browser.ReplayIntended | src/browser.ts:100-131 | a sequence of calls under the corrected removal gives one answer per call, keeps the configuration, is loaded exactly when it was or some call other than a cancel ran, and then holds init's processor when init resolves; what each answer is comes from EveryRemovalAnswers |
| Browser.EveryRemovalAnswers | src/browser.ts:109-131 | with the corrected removal, every call in any sequence settles as its kind says: a removal with the processed result or init's rejection, a warm-up with init's rejection if any, a cancel with nothing |
| Browser.WarmUpThenRemoveDiffers | src/browser.ts:109-124 | for warm-up then removal, the as-written facade answers nothing and the corrected one answers |

## Left out

- src/worker.ts (the worker proxy) is not part of this model. Neither are
  src/schema.ts (`validateConfig`) and src/tensor.ts: `init` takes the
  validated configuration as given.
- Image decoding and encoding (`imageSourceToImageData`, `imageEncode`,
  canvas and `createImageBitmap`) are parameters. A source that fails to
  convert is modelled as `None`.
- Resampling quality is not modelled. The only assumption is that a resize
  returns a valid image of the requested size. A request with a zero side is
  modelled as the platform's rejection (`ResizeRejected`); a 1 x 2048 source
  reaches it.
- Float32 rounding of the tensor values and of `alpha * 255` is not
  modelled: exact reals stand for them. ClampToByte rounds halves up, where
  the platform rounds halves to even.
- Utils.CalculateProportionalSize: uses exact division, not double
  precision, so the side that should land on its bound can come out one
  short in the source. For 1568 x 1000 into 1024 x 1024, the scale
  1024 / 1568 rounds down in double precision, 1568 times it is just below
  1024, and the floor gives 1023 x 653; the model gives 1024 x 653. Whether
  both sides keep the source's aspect ratio to within one pixel is not
  stated.
- Inference.OutputSizePositive: the model's exact arithmetic places the
  boundary at 1024 · short == long, which is not positive in the source. For
  a 50176 x 49 source the scale 1024 / 50176 is 1/49 in double precision,
  49 times it is just below 1, and the source asks for 1023 x 0, which is
  rejected; the model gives 1024 x 1 and succeeds. ShortSideFit and
  FullPathSucceeds share this boundary. Strictly inside it
  (1024 · short > long, with sides far below 2^52) the short side is
  positive in both.
- Preload: states the returned catalog copy and the keys it starts loading,
  not the stores those unawaited loads produce.
- `new URL(name, publicPath)` is a parameter that either resolves or fails.
  A publicPath it cannot parse makes `load` reject before storage is read;
  the model returns that as `InvalidURL` and does not model the URL parser
  itself.
- Utils.EnsureAbsoluteURL: `new URL(url, location.href)` throws on a URL it
  cannot parse; the model takes the resolution as a total function and does
  not model that exception.
- OrtWebRt.CreateSession takes the loader as a parameter. In the source it
  is `Bundle.load` under the call's configuration (OrtWebRt.BundleLoader,
  instantiated in FirstCreateLoadsEveryFile); the contract is stated for any
  loader, so what each load does is Bundle.Load's contract and not restated
  here.
- OrtWebRt.FillSlots: which store each load sees is not stated; a filled
  slot's blob is stated to come from the loader for that file
  (FillSlotsFromLoader), not from the particular store the load read.
- Concurrency is not modelled: in-flight memoised promises, unawaited
  preload loads, and interleaved calls. Nor is the timing of the localforage
  writes, which `load` does not await.
- The AbortController signal is never passed to the work, so cancellation
  only clears the field.
- Console logging and the debug `ort.env` flags are not modelled.
- `ort.Tensor`'s own size validation is not modelled.
- Bundle.Load: a cache hit is not re-checked against the catalog size.
  LoadKeepsStoreConsistent gives the size for hits under the store invariant.
- In debug mode `removeBackground` assigns the logger into the caller's
  configuration object. The model returns a new configuration instead of
  mutating the shared one.
- A mask shorter than the working image reads `undefined` for the missing
  pixels, which the code stores as alpha 0. The model follows the code here;
  it does not treat the mismatch as an error.

## Findings

| source | as written | input that shows it | evidently intended | confidence | as-written member | corrected member |
|---|---|---|---|---|---|---|
| src/browser.ts:109-124 | `removeBackground` works only while `loaded` is false, and both `warmpUp` and the first removal set `loaded` | `warmpUp()` then `removeBackground(img)`: the removal resolves to undefined; so does every second removal | load the model if needed (init is memoised), then always process the image | high, not executed | Browser.WarmUpSilencesRemoval | Browser.ReplayIntended | src/browser.ts:100-131 | a sequence of calls under the corrected removal gives one answer per call, keeps the configuration, is loaded exactly when it was or some call other than a cancel ran, and then holds init's processor when init resolves; what each answer is comes from EveryRemovalAnswers |
| Browser.EveryRemovalAnswers |

=== FILE: browser.dfy ===
/**
 * The public facade (src/browser.ts): configuration defaulting in
 * `removeBackground`, the memoised `init`, and the `BackgroundRemoval`
 * lifecycle over its `loaded` and `controller` fields. Source decoding,
 * image encoding and the memo key's serialisation are function parameters.
 */
module Browser {
  import opened Wrappers
  import opened Schema
  import Bundle
  import OrtWebRt
  import Inference

  /** The configuration used when the caller supplies none. */
  const DefaultConfig := Config(false, false, "medium", Some(map[]), None, None)

  /**
   * The configuration `removeBackground` runs with: the default when none is
   * given; with `debug` on, a logging progress callback is installed unless
   * one is already present.
   */
  function EffectiveConfig(supplied: Option<Config>): (c: Config)
    ensures supplied.None? ==>
      && !c.debug && !c.proxyToWorker && c.model == "medium"
      && c.fetchArgs == Some(map[]) && c.progress.None? && c.publicPath.None?
    ensures supplied.Some? ==> c.(progress := supplied.value.progress) == supplied.value
    ensures supplied.Some? && supplied.value.progress.Some? ==> c.progress == supplied.value.progress
    ensures supplied.Some? && supplied.value.progress.None? ==>
      (c.progress.Some? <==> supplied.value.debug) && (c.progress.Some? ==> c.progress == Some(DebugLogger))
  {
    var config := if supplied.Some? then supplied.value else DefaultConfig;
    if config.debug then
      config.(progress := if config.progress.Some? then config.progress else Some(DebugLogger))
    else config
  }

  /** `configData`: the result of `init`, passed back into `removeBackground`. */
  datatype ConfigData = ConfigData(config: Option<Config>, hasImports: bool, session: Option<OrtWebRt.SessionRun>)

  datatype RemovalOutcome = RemovalOutcome(events: seq<ProgressEvent>, result: Result<Bundle.Blob, Error>)

  /**
   * `removeBackground(image, configuration)`: `converted` is what source
   * conversion produced (None when it is not image data), `encode` is
   * `imageEncode`.
   */
  function RemoveBackground(
    converted: Option<Image>, configuration: ConfigData,
    resize: Inference.Resizer, encode: Image -> Bundle.Blob): (o: RemovalOutcome)
    requires converted.Some? ==>
      converted.value.Valid() && converted.value.width > 0 && converted.value.height > 0
    requires Inference.ResizesTo(resize)
    ensures converted.None? ==> o == RemovalOutcome([], Failure(NotImageData))
    ensures converted.Some? ==>
      var inference := Inference.RunInference(converted.value, EffectiveConfig(configuration.config),
                                              configuration.hasImports, configuration.session, resize);
      && o.events == inference.events
      && (inference.result.Success? <==> o.result.Success?)
      && (o.result.Success? ==> o.result.value == encode(inference.result.value))
      && (inference.result.Failure? ==> o.result == Failure(inference.result.error))
    ensures converted.Some? && (!configuration.hasImports || configuration.session.None?) ==>
      o.result == Success(encode(converted.value))
  {
    if converted.None? then RemovalOutcome([], Failure(NotImageData))
    else
      var config := EffectiveConfig(configuration.config);
      var inference := Inference.RunInference(converted.value, config, configuration.hasImports, configuration.session, resize);
      match inference.result
      case Failure(e) => RemovalOutcome(inference.events, Failure(e))
      case Success(image) => RemovalOutcome(inference.events, Success(encode(image)))
  }

  /** The memo key: `JSON.stringify(config)`, left abstract. */
  type Fingerprint = Option<Config> -> string

  datatype MemoOutcome<R> = MemoOutcome(memo: map<string, R>, value: R, built: bool)

  /**
   * `init = memoize(_init, JSON.stringify)`: a key seen before returns the
   * stored result, rejected or not, without building; a new key builds once
   * and stores the result.
   */
  function Init<R>(memo: map<string, R>, config: Option<Config>, fingerprint: Fingerprint, build: Option<Config> -> R): (o: MemoOutcome<R>)
    ensures fingerprint(config) in o.memo && o.value == o.memo[fingerprint(config)]
    ensures o.memo.Keys == memo.Keys + {fingerprint(config)}
    ensures forall k :: k in memo ==> k in o.memo && o.memo[k] == memo[k]
    ensures o.built <==> fingerprint(config) !in memo
    ensures o.built ==> o.value == build(config)
  {
    var key := fingerprint(config);
    if key in memo then MemoOutcome(memo, memo[key], false)
    else MemoOutcome(memo[key := build(config)], build(config), true)
  }

  datatype MemoRun<R> = MemoRun(memo: map<string, R>, values: seq<R>, builds: seq<string>)

  /** `configs[i]` is the first configuration whose key is `k`. */
  ghost predicate FirstWithKey(configs: seq<Option<Config>>, fingerprint: Fingerprint, k: string, i: nat)
    requires i < |configs|
  {
    fingerprint(configs[i]) == k && forall j :: 0 <= j < i ==> fingerprint(configs[j]) != k
  }

  /** A sequence of `init` calls against one memo table. */
  function InitAll<R>(memo: map<string, R>, configs: seq<Option<Config>>, fingerprint: Fingerprint, build: Option<Config> -> R): (run: MemoRun<R>)
    ensures |run.values| == |configs|
    ensures forall i :: 0 <= i < |configs| ==>
      fingerprint(configs[i]) in run.memo && run.values[i] == run.memo[fingerprint(configs[i])]
    ensures forall k :: k in memo ==> k in run.memo && run.memo[k] == memo[k]
    ensures forall k :: k in run.builds ==> k !in memo
    ensures forall i, j :: 0 <= i < j < |run.builds| ==> run.builds[i] != run.builds[j]
    ensures forall k :: k in run.builds <==> k in run.memo && k !in memo
    ensures forall k :: k in run.memo && k !in memo ==>
      exists i :: 0 <= i < |configs| && FirstWithKey(configs, fingerprint, k, i) && run.memo[k] == build(configs[i])
  {
    if |configs| == 0 then MemoRun(memo, [], [])
    else
      var prior := InitAll(memo, configs[..|configs| - 1], fingerprint, build);
      ExtendKeepsMemo(memo, configs, fingerprint, build, prior);
      FirstBuildsExtend(memo, configs, fingerprint, build, prior);
      Extend(prior, configs[|configs| - 1], fingerprint, build)
  }

  /** One more `init` call appended to a run. */
  function Extend<R>(prior: MemoRun<R>, config: Option<Config>, fingerprint: Fingerprint, build: Option<Config> -> R): MemoRun<R> {
    var o := Init(prior.memo, config, fingerprint, build);
    MemoRun(o.memo, prior.values + [o.value], prior.builds + if o.built then [fingerprint(config)] else [])
  }

  /** One more `init` call keeps the memo, the values and the builds consistent. */
  lemma ExtendKeepsMemo<R>(
    memo: map<string, R>, configs: seq<Option<Config>>, fingerprint: Fingerprint, build: Option<Config> -> R, prior: MemoRun<R>)
    requires |configs| > 0
    requires var c := configs[..|configs| - 1];
      && |prior.values| == |c|
      && (forall i :: 0 <= i < |c| ==> fingerprint(c[i]) in prior.memo && prior.values[i] == prior.memo[fingerprint(c[i])])
      && (forall k :: k in memo ==> k in prior.memo && prior.memo[k] == memo[k])
      && (forall k :: k in prior.builds ==> k !in memo)
      && (forall i, j :: 0 <= i < j < |prior.builds| ==> prior.builds[i] != prior.builds[j])
      && (forall k :: k in prior.builds <==> k in prior.memo && k !in memo)
    ensures var run := Extend(prior, configs[|configs| - 1], fingerprint, build);
      && |run.values| == |configs|
      && (forall i :: 0 <= i < |configs| ==>
            fingerprint(configs[i]) in run.memo && run.values[i] == run.memo[fingerprint(configs[i])])
      && (forall k :: k in memo ==> k in run.memo && run.memo[k] == memo[k])
      && (forall k :: k in run.builds ==> k !in memo)
      && (forall i, j :: 0 <= i < j < |run.builds| ==> run.builds[i] != run.builds[j])
      && (forall k :: k in run.builds <==> k in run.memo && k !in memo)
  {
    assert forall i :: 0 <= i < |configs| - 1 ==> configs[..|configs| - 1][i] == configs[i];
  }

  /** One more `init` call keeps every new key tied to the first configuration that produced it. */
  lemma FirstBuildsExtend<R>(
    memo: map<string, R>, configs: seq<Option<Config>>, fingerprint: Fingerprint, build: Option<Config> -> R, prior: MemoRun<R>)
    requires |configs| > 0
    requires var c := configs[..|configs| - 1];
      && (forall i :: 0 <= i < |c| ==> fingerprint(c[i]) in prior.memo)
      && (forall k :: k in prior.memo && k !in memo ==>
            exists i :: 0 <= i < |c| && FirstWithKey(c, fingerprint, k, i) && prior.memo[k] == build(c[i]))
    ensures var run := Extend(prior, configs[|configs| - 1], fingerprint, build);
      forall k :: k in run.memo && k !in memo ==>
        exists i :: 0 <= i < |configs| && FirstWithKey(configs, fingerprint, k, i) && run.memo[k] == build(configs[i])
  {
    var n := |configs| - 1;
    var c := configs[..n];
    var next := Extend(prior, configs[n], fingerprint, build).memo;
    forall k | k in next && k !in memo
      ensures exists i :: 0 <= i < |configs| && FirstWithKey(configs, fingerprint, k, i) && next[k] == build(configs[i])
    {
      if k in prior.memo {
        var i :| 0 <= i < n && FirstWithKey(c, fingerprint, k, i) && prior.memo[k] == build(c[i]);
        assert forall j :: 0 <= j <= i ==> c[j] == configs[j];
        assert FirstWithKey(configs, fingerprint, k, i);
      } else {
        assert forall j :: 0 <= j < n ==> c[j] == configs[j] && fingerprint(c[j]) in prior.memo;
        assert next[k] == build(configs[n]);
        assert FirstWithKey(configs, fingerprint, k, n);
      }
    }
  }

  /**
   * Calls whose configurations have equal keys share one result, and each
   * new key is built exactly once.
   */
  lemma EqualKeysShareOneInit<R>(memo: map<string, R>, configs: seq<Option<Config>>, fingerprint: Fingerprint, build: Option<Config> -> R, i: nat, j: nat)
    requires i < |configs| && j < |configs| && fingerprint(configs[i]) == fingerprint(configs[j])
    ensures InitAll(memo, configs, fingerprint, build).values[i] == InitAll(memo, configs, fingerprint, build).values[j]
  {
  }

  /** The facade's fields: `loaded`, a non-null `controller`, and the `init` result once there is one. */
  datatype Facade<P> = Facade(config: Option<Config>, loaded: bool, controller: bool, processor: Option<P>)

  function NewFacade<P>(config: Option<Config>): (s: Facade<P>)
    ensures !s.loaded && s.controller && s.processor.None? && s.config == config
  {
    Facade(config, false, true, None)
  }

  /**
   * `loadModel`: `loaded` is set before `init` resolves, so it stays set
   * even when `init` rejects; the processor is recorded only on success.
   */
  function LoadModel<P>(s: Facade<P>, init: Result<P, Error>): (r: (Facade<P>, Result<P, Error>))
    ensures r.0.loaded && r.0.controller == s.controller && r.0.config == s.config && r.1 == init
    ensures init.Success? ==> r.0.processor == Some(init.value)
    ensures init.Failure? ==> r.0.processor == s.processor
  {
    var s' := s.(loaded := true);
    match init
    case Failure(e) => (s', Failure(e))
    case Success(p) => (s'.(processor := Some(p)), Success(p))
  }

  /**
   * `warmpUp`: loads the model, whether or not it is loaded already, and
   * settles with nothing, or with `init`'s rejection (here `Some(error)`).
   */
  function WarmUp<P>(s: Facade<P>, init: Result<P, Error>): (r: (Facade<P>, Option<Error>))
    ensures r.0.loaded && r.0.config == s.config && r.0.controller == s.controller
    ensures r.1.Some? <==> init.Failure?
    ensures init.Failure? ==> r.1 == Some(init.error) && r.0.processor == s.processor
    ensures init.Success? ==> r.0.processor == Some(init.value)
  {
    var (s', processor) := LoadModel(s, init);
    (s', if processor.Failure? then Some(processor.error) else None)
  }

  /**
   * The method `removeBackground`: works only while `loaded` is false
   * (otherwise it resolves to undefined, here None); a fresh controller is
   * installed for the run and cleared when the run completes.
   */
  function RemoveBackgroundCall<P, B>(s: Facade<P>, init: Result<P, Error>, remove: P -> Result<B, Error>): (r: (Facade<P>, Option<Result<B, Error>>))
    ensures s.loaded ==> r == (s, None)
    ensures !s.loaded ==> r.0.loaded && r.1.Some?
    ensures !s.loaded && init.Failure? ==> r.1 == Some(Failure(init.error)) && r.0.controller == s.controller
    ensures !s.loaded && init.Success? ==> r.1 == Some(remove(init.value))
    ensures !s.loaded && init.Success? ==> (r.0.controller <==> remove(init.value).Failure?)
    ensures !s.loaded ==> r.0.config == s.config
    ensures !s.loaded && init.Success? ==> r.0.processor == Some(init.value)
    ensures !s.loaded && init.Failure? ==> r.0.processor == s.processor
  {
    if s.loaded then (s, None)
    else
      var (s1, processor) := LoadModel(s, init);
      match processor
      case Failure(e) => (s1, Some(Failure(e)))
      case Success(p) =>
        var s2 := s1.(controller := true);
        var result := remove(p);
        if result.Success? then (s2.(controller := false), Some(result)) else (s2, Some(result))
  }

  /** `cancelBackgroundRemoval`: clears the controller; nothing else changes. */
  function Cancel<P>(s: Facade<P>): (s': Facade<P>)
    ensures !s'.controller
    ensures s'.(controller := s.controller) == s
  {
    if s.controller then s.(controller := false) else s
  }

  lemma CancelIsIdempotent<P>(s: Facade<P>)
    ensures Cancel(Cancel(s)) == Cancel(s)
  {
  }

  datatype Call = WarmUpCall | RemoveCall | CancelCall

  /**
   * How a warm-up settles, in the form the call records use: undefined is
   * None and a rejection is `Some(Failure(error))`.
   */
  function WarmUpAnswer<B>(rejection: Option<Error>): (a: Option<Result<B, Error>>)
    ensures a.Some? <==> rejection.Some?
    ensures rejection.Some? ==> a == Some(Failure(rejection.value))
  {
    match rejection
    case None => None
    case Some(e) => Some(Failure(e))
  }

  /**
   * A sequence of calls on one facade. Each call's settlement is recorded:
   * None for undefined (a cancel, a warm-up that resolves, a silenced
   * removal), otherwise the result or the rejection.
   */
  function Replay<P, B>(s: Facade<P>, calls: seq<Call>, init: Result<P, Error>, remove: P -> Result<B, Error>): (r: (Facade<P>, seq<Option<Result<B, Error>>>))
    ensures |r.1| == |calls|
    ensures s.loaded ==> r.0.loaded
    ensures forall i :: 0 <= i < |calls| && calls[i] == CancelCall ==> r.1[i].None?
    decreases |calls|
  {
    if |calls| == 0 then (s, [])
    else
      var (s1, out) := match calls[0]
        case WarmUpCall => var (s', rejection) := WarmUp(s, init); (s', WarmUpAnswer(rejection))
        case RemoveCall => RemoveBackgroundCall(s, init, remove)
        case CancelCall => (Cancel(s), None);
      var rest := Replay(s1, calls[1..], init, remove);
      assert forall i :: 1 <= i < |calls| ==> calls[i] == calls[1..][i - 1];
      (rest.0, [out] + rest.1)
  }

  /** The number of `removeBackground` calls that did any work, that is, settled with something. */
  function RemovalWork<B>(calls: seq<Call>, results: seq<Option<Result<B, Error>>>): nat
    requires |calls| == |results|
  {
    if |calls| == 0 then 0
    else (if calls[0] == RemoveCall && results[0].Some? then 1 else 0) + RemovalWork(calls[1..], results[1..])
  }

  /**
   * Once loaded, every later `removeBackground` is a no-op; so over any
   * sequence of calls at most one of them does any work, and none does when
   * the facade is already loaded.
   */
  lemma {:induction false} AtMostOneRemoval<P, B>(s: Facade<P>, calls: seq<Call>, init: Result<P, Error>, remove: P -> Result<B, Error>)
    ensures RemovalWork(calls, Replay(s, calls, init, remove).1) <= 1
    ensures s.loaded ==> RemovalWork(calls, Replay(s, calls, init, remove).1) == 0
    decreases |calls|
  {
    if |calls| > 0 {
      var (s1, out) := match calls[0]
        case WarmUpCall => var (s', rejection) := WarmUp(s, init); (s', WarmUpAnswer(rejection))
        case RemoveCall => RemoveBackgroundCall(s, init, remove)
        case CancelCall => (Cancel(s), None);
      var rest := Replay(s1, calls[1..], init, remove);
      assert Replay(s, calls, init, remove).1 == [out] + rest.1;
      assert ([out] + rest.1)[1..] == rest.1;
      AtMostOneRemoval(s1, calls[1..], init, remove);
      if calls[0] == RemoveCall && out.Some? {
        assert s1.loaded;
      }
    }
  }

  /** As written, warming up silences the next `removeBackground`: it resolves to undefined. */
  lemma WarmUpSilencesRemoval<P, B>(s: Facade<P>, init: Result<P, Error>, remove: P -> Result<B, Error>)
    ensures RemoveBackgroundCall(WarmUp(s, init).0, init, remove).1 == None
  {
  }

  /**
   * The evidently intended `removeBackground`: load the model through the
   * memoised `init` (a no-op after the first time) and always process.
   */
  function RemoveBackgroundIntended<P, B>(s: Facade<P>, init: Result<P, Error>, remove: P -> Result<B, Error>): (r: (Facade<P>, Result<B, Error>))
    ensures r.0.loaded && r.0.config == s.config
    ensures init.Failure? ==> r.1 == Failure(init.error) && r.0.controller == s.controller && r.0.processor == s.processor
    ensures init.Success? ==> r.1 == remove(init.value) && r.0.processor == Some(init.value)
    ensures init.Success? ==> (r.0.controller <==> r.1.Failure?)
  {
    var (s1, processor) := LoadModel(s, init);
    match processor
    case Failure(e) => (s1, Failure(e))
    case Success(p) =>
      var result := remove(p);
      (s1.(controller := !result.Success?), result)
  }

  /** With the intended behaviour, warming up first does not change what a removal returns. */
  lemma WarmUpKeepsRemoval<P, B>(s: Facade<P>, init: Result<P, Error>, remove: P -> Result<B, Error>)
    ensures RemoveBackgroundIntended(WarmUp(s, init).0, init, remove).1 == RemoveBackgroundIntended(s, init, remove).1
  {
  }

  /** A sequence of calls under the intended behaviour. */
  function ReplayIntended<P, B>(s: Facade<P>, calls: seq<Call>, init: Result<P, Error>, remove: P -> Result<B, Error>): (r: (Facade<P>, seq<Option<Result<B, Error>>>))
    ensures |r.1| == |calls|
    ensures r.0.config == s.config
    ensures r.0.loaded <==> s.loaded || exists i :: 0 <= i < |calls| && calls[i] != CancelCall
    ensures r.0.processor ==
      if init.Success? && exists i :: 0 <= i < |calls| && calls[i] != CancelCall then Some(init.value) else s.processor
    decreases |calls|
  {
    if |calls| == 0 then (s, [])
    else
      var (s1, out) := match calls[0]
        case WarmUpCall => var (s', rejection) := WarmUp(s, init); (s', WarmUpAnswer(rejection))
        case RemoveCall =>
          var (s', result) := RemoveBackgroundIntended(s, init, remove);
          (s', Some(result))
        case CancelCall => (Cancel(s), None);
      var rest := ReplayIntended(s1, calls[1..], init, remove);
      (rest.0, [out] + rest.1)
  }

  /**
   * What a call settles with under the intended behaviour, whatever came
   * before it: a removal answers with the processed result (or `init`'s
   * rejection), a warm-up with `init`'s rejection if any, a cancel with nothing.
   */
  function IntendedAnswer<P, B>(call: Call, init: Result<P, Error>, remove: P -> Result<B, Error>): Option<Result<B, Error>> {
    match call
    case RemoveCall => Some(if init.Success? then remove(init.value) else Failure(init.error))
    case WarmUpCall => if init.Failure? then Some(Failure(init.error)) else None
    case CancelCall => None
  }

  /** Under the intended behaviour every call, wherever it comes, settles as `IntendedAnswer` says. */
  lemma {:induction false} EveryRemovalAnswers<P, B>(s: Facade<P>, calls: seq<Call>, init: Result<P, Error>, remove: P -> Result<B, Error>)
    ensures forall i :: 0 <= i < |calls| ==>
      ReplayIntended(s, calls, init, remove).1[i] == IntendedAnswer(calls[i], init, remove)
    decreases |calls|
  {
    if |calls| > 0 {
      var (s1, out) := match calls[0]
        case WarmUpCall => var (s', rejection) := WarmUp(s, init); (s', WarmUpAnswer(rejection))
        case RemoveCall =>
          var (s', result) := RemoveBackgroundIntended(s, init, remove);
          (s', Some(result))
        case CancelCall => (Cancel(s), None);
      var rest := ReplayIntended(s1, calls[1..], init, remove);
      assert ReplayIntended(s, calls, init, remove).1 == [out] + rest.1;
      EveryRemovalAnswers(s1, calls[1..], init, remove);
      forall i | 1 <= i < |calls|
        ensures ([out] + rest.1)[i] == rest.1[i - 1] && calls[i] == calls[1..][i - 1]
      {
      }
    }
  }

  /** As written, a warm-up followed by a removal answers nothing, where the intended facade answers. */
  lemma WarmUpThenRemoveDiffers<P, B>(s: Facade<P>, init: Result<P, Error>, remove: P -> Result<B, Error>)
    ensures Replay(s, [WarmUpCall, RemoveCall], init, remove).1[1] == None
    ensures ReplayIntended(s, [WarmUpCall, RemoveCall], init, remove).1[1].Some?
  {
    EveryRemovalAnswers(s, [WarmUpCall, RemoveCall], init, remove);
    assert [WarmUpCall, RemoveCall][1..] == [RemoveCall];
    assert [RemoveCall][1..] == [];
  }
}

=== FILE: bundle.dfy ===
/**
 * The asset catalog and the download cache (src/bundle.ts). Durable storage
 * is a map from asset key to stored file; the network is a function from a
 * request to a response whose body is the sequence of chunks its reader
 * yields.
 */
module Bundle {
  import opened Wrappers
  import opened Schema

  /**
   * A catalog entry: where the asset lives, its exact byte size and its MIME
   * type. The URLs are the module specifiers the catalog passes to
   * `require(...)`; the bundler replaces them with the emitted asset URLs, which
   * only their last path segment survives into when `publicPath` is set.
   */
  datatype Entry = Entry(url: string, size: nat, mime: string)

  datatype Blob = Blob(bytes: seq<Byte>, mime: string) {
    function Size(): nat {
      |bytes|
    }
  }

  /** What durable storage holds under a key. */
  datatype StoredFile = StoredFile(file: Option<Blob>, lastModifiedDate: Option<string>)

  type Store = map<string, StoredFile>

  const SmallModel := "small"
  const MediumModel := "medium"

  /** The fixed catalog, in its insertion order. */
  const CatalogKeys: seq<string> := [
    SmallModel, MediumModel, "ort-wasm-simd-threaded.wasm", "ort-wasm-simd.wasm",
    "ort-wasm-threaded.wasm", "ort-wasm.wasm"]

  const Catalog: map<string, Entry> := map[
    SmallModel := Entry("../bundle/models/a620c8c752bdf5c69d98.onnx", 44342436, "application/octet-stream"),
    MediumModel := Entry("../bundle/models/2ebb460f4adfe0ebf34d.onnx", 88188479, "application/octet-stream"),
    "ort-wasm-simd-threaded.wasm" :=
      Entry("../node_modules/onnxruntime-web/dist/ort-wasm-simd-threaded.wasm", 10281838, "application/wasm"),
    "ort-wasm-simd.wasm" :=
      Entry("../node_modules/onnxruntime-web/dist/ort-wasm-simd.wasm", 10335238, "application/wasm"),
    "ort-wasm-threaded.wasm" :=
      Entry("../node_modules/onnxruntime-web/dist/ort-wasm-threaded.wasm", 9413659, "application/wasm"),
    "ort-wasm.wasm" :=
      Entry("../node_modules/onnxruntime-web/dist/ort-wasm.wasm", 9487920, "application/wasm")]

  /** A fetch response: status, `Last-Modified` header, content type and the chunks of a non-null body. */
  datatype Response = Response(
    status: int,
    lastModified: Option<string>,
    contentType: string,
    body: Option<seq<seq<Byte>>>)

  datatype Request = Request(url: string, options: map<string, FetchValue>)

  /**
   * The platform: `fetch`, and WHATWG URL resolution `new URL(relative, base)`,
   * which throws (here `Failure`) when the base is not an absolute URL.
   */
  datatype Network = Network(
    fetch: Request -> Result<Response, string>,
    resolve: (string, string) -> Result<string, string>)

  datatype LoadOutcome = LoadOutcome(
    store: Store,
    requests: seq<Request>,
    events: seq<ProgressEvent>,
    result: Result<Blob, Error>)

  /**
   * `url.split('/').pop()`: the part after the last slash, or the whole
   * string when there is none.
   */
  function LastSegment(url: string): (seg: string)
    ensures |seg| <= |url| && url[|url| - |seg|..] == seg
    ensures forall i :: 0 <= i < |seg| ==> seg[i] != '/'
    ensures |seg| < |url| ==> url[|url| - |seg| - 1] == '/'
  {
    if |url| == 0 || url[|url| - 1] == '/' then ""
    else LastSegment(url[..|url| - 1]) + [url[|url| - 1]]
  }

  /**
   * With a non-empty public path, only the catalog URL's file name is kept and
   * resolved against it; a resolution that throws rejects the load. The URL
   * parser is a parameter, so the contract can only say which input reaches
   * it and how its answer is passed on; there is no independent property of
   * the resolved URL to state.
   */
  function AssetURL(entry: Entry, config: Config, net: Network): (url: Result<string, Error>)
    ensures config.publicPath.Some? && config.publicPath.value != "" ==>
      match net.resolve(LastSegment(entry.url), config.publicPath.value)
      case Success(u) => url == Success(u)
      case Failure(reason) => url == Failure(InvalidURL(reason))
    ensures config.publicPath.None? || config.publicPath.value == "" ==> url == Success(entry.url)
  {
    if config.publicPath.Some? && config.publicPath.value != "" then
      match net.resolve(LastSegment(entry.url), config.publicPath.value)
      case Success(u) => Success(u)
      case Failure(reason) => Failure(InvalidURL(reason))
    else Success(entry.url)
  }

  /** The default fetch options; `If-Modified-Since` carries a stored date when there is one. */
  function DefaultFetchOptions(stored: Option<StoredFile>): (options: map<string, FetchValue>)
    ensures options.Keys == {"cache", "headers"} && options["cache"] == Text("force-cache")
    ensures options["headers"].Fields?
      && options["headers"].fields.Keys == {"Accept-Encoding", "Cache-Control", "If-Modified-Since"}
    ensures stored.Some? && stored.value.lastModifiedDate.Some? ==>
      options["headers"].fields["If-Modified-Since"] == Text(stored.value.lastModifiedDate.value)
    ensures stored.None? || stored.value.lastModifiedDate.None? ==>
      options["headers"].fields["If-Modified-Since"] == Undefined
  {
    var since := if stored.Some? && stored.value.lastModifiedDate.Some?
      then Text(stored.value.lastModifiedDate.value) else Undefined;
    map[
      "cache" := Text("force-cache"),
      "headers" := Fields(map[
        "Accept-Encoding" := Text("gzip, deflate, br"),
        "Cache-Control" := Text("public, max-age=48000, must-revalidate"),
        "If-Modified-Since" := since])]
  }

  /**
   * `{...defaults, ...user}`: a shallow merge in which every top-level key
   * the caller supplies wins outright, so a caller's `headers` replaces the
   * whole default header object.
   */
  function MergeFetchOptions(defaults: map<string, FetchValue>, user: map<string, FetchValue>): (r: map<string, FetchValue>)
    ensures r.Keys == defaults.Keys + user.Keys
    ensures forall k :: k in user ==> r[k] == user[k]
    ensures forall k :: k in defaults && k !in user ==> r[k] == defaults[k]
  {
    defaults + user
  }

  /** The chunks of a body joined in arrival order. */
  function Concat(chunks: seq<seq<Byte>>): seq<Byte> {
    if |chunks| == 0 then [] else Concat(chunks[..|chunks| - 1]) + chunks[|chunks| - 1]
  }

  /** The progress call made after chunk `i`: the cumulative byte count against the catalog size. */
  function ChunkEvent(chunks: seq<seq<Byte>>, key: string, total: nat, i: nat): ProgressEvent
    requires i < |chunks|
  {
    ProgressEvent("fetch:" + key, |Concat(chunks[..i + 1])|, total)
  }

  function ProgressEvents(chunks: seq<seq<Byte>>, key: string, total: nat): (events: seq<ProgressEvent>)
    ensures |events| == |chunks|
    ensures forall i :: 0 <= i < |chunks| ==> events[i] == ChunkEvent(chunks, key, total, i)
  {
    seq(|chunks|, i requires 0 <= i < |chunks| => ChunkEvent(chunks, key, total, i))
  }

  lemma {:induction false} ConcatPrefixGrows(chunks: seq<seq<Byte>>, i: nat, j: nat)
    requires i <= j <= |chunks|
    ensures |Concat(chunks[..i])| <= |Concat(chunks[..j])|
    decreases j
  {
    if i < j {
      assert chunks[..j][..j - 1] == chunks[..j - 1];
      ConcatPrefixGrows(chunks, i, j - 1);
    }
  }

  lemma ProgressGrowsAt(chunks: seq<seq<Byte>>, key: string, total: nat, i: nat, j: nat)
    requires i <= j < |chunks|
    ensures ProgressEvents(chunks, key, total)[i].current <= ProgressEvents(chunks, key, total)[j].current
  {
    ConcatPrefixGrows(chunks, i + 1, j + 1);
  }

  /**
   * The reported byte count never decreases, the total is always the
   * catalog size, and the last call reports every byte received.
   */
  lemma ProgressIsCumulative(chunks: seq<seq<Byte>>, key: string, total: nat)
    ensures forall i, j :: 0 <= i <= j < |chunks| ==>
      ProgressEvents(chunks, key, total)[i].current <= ProgressEvents(chunks, key, total)[j].current
    ensures forall i :: 0 <= i < |chunks| ==>
      ProgressEvents(chunks, key, total)[i].total == total
      && ProgressEvents(chunks, key, total)[i].key == "fetch:" + key
    ensures |chunks| > 0 ==>
      ProgressEvents(chunks, key, total)[|chunks| - 1].current == |Concat(chunks)|
  {
    var events := ProgressEvents(chunks, key, total);
    forall i, j | 0 <= i <= j < |chunks|
      ensures events[i].current <= events[j].current
    {
      ProgressGrowsAt(chunks, key, total, i, j);
    }
    forall i | 0 <= i < |chunks|
      ensures events[i].total == total && events[i].key == "fetch:" + key
    {
      assert events[i] == ChunkEvent(chunks, key, total, i);
    }
    if |chunks| > 0 {
      assert events[|chunks| - 1] == ChunkEvent(chunks, key, total, |chunks| - 1);
      assert chunks[..|chunks|] == chunks;
    }
  }

  /**
   * The streaming read with progress: one progress call per chunk, the
   * chunks kept in arrival order.
   */
  method FetchChunked(chunks: seq<seq<Byte>>, key: string, total: nat) returns (received: seq<seq<Byte>>, events: seq<ProgressEvent>)
    ensures received == chunks
    ensures events == ProgressEvents(chunks, key, total)
  {
    received, events := [], [];
    var receivedLength := 0;
    var n := 0;
    while n < |chunks|
      invariant 0 <= n <= |chunks|
      invariant received == chunks[..n]
      invariant receivedLength == |Concat(chunks[..n])|
      invariant |events| == n
      invariant forall i :: 0 <= i < n ==> events[i] == ChunkEvent(chunks, key, total, i)
    {
      var value := chunks[n];
      assert chunks[..n + 1][..n] == chunks[..n];
      received := received + [value];
      receivedLength := receivedLength + |value|;
      events := events + [ProgressEvent("fetch:" + key, receivedLength, total)];
      n := n + 1;
    }
    assert chunks[..n] == chunks;
  }

  /** The body as read by `load`: streamed with progress, read chunk by chunk, or taken whole. */
  function ReadBody(response: Response, entry: Entry, key: string, withProgress: bool): (r: Result<(Blob, seq<ProgressEvent>), Error>)
    ensures r.Failure? <==> withProgress && response.body.None?
    ensures r.Failure? ==> r.error == NullBody(key)
    ensures r.Success? ==> r.value.0.bytes == if response.body.Some? then Concat(response.body.value) else []
    ensures r.Success? ==> r.value.0.mime == if response.body.Some? then entry.mime else response.contentType
    ensures r.Success? ==>
      r.value.1 == if withProgress then ProgressEvents(response.body.value, key, entry.size) else []
  {
    if withProgress then
      if response.body.None? then Failure(NullBody(key))
      else Success((Blob(Concat(response.body.value), entry.mime), ProgressEvents(response.body.value, key, entry.size)))
    else if response.body.Some? then Success((Blob(Concat(response.body.value), entry.mime), []))
    else Success((Blob([], response.contentType), []))
  }

  /** A stored entry with a file is a cache hit. */
  predicate IsHit(store: Store, key: string) {
    key in store && store[key].file.Some?
  }

  /** `lastModifiedDate || entry.lastModifiedDate`: only a non-empty header from a 200 response is kept. */
  function KeptLastModified(response: Response): (date: Option<string>)
    ensures date.Some? <==>
      response.status == 200 && response.lastModified.Some? && response.lastModified.value != ""
    ensures date.Some? ==> date == response.lastModified
  {
    if response.status == 200 && response.lastModified.Some? && response.lastModified.value != "" then
      response.lastModified
    else None
  }

  /**
   * `load(key, config)`: the asset URL is worked out first, then a hit
   * returns the stored file untouched; a miss fetches, checks the byte size
   * against the catalog and stores the file only when the size matches.
   */
  function Load(store: Store, key: string, config: Config, net: Network): (o: LoadOutcome)
    ensures key !in Catalog ==> o == LoadOutcome(store, [], [], Failure(UnknownAsset(key)))
    ensures key in Catalog && AssetURL(Catalog[key], config, net).Failure? ==>
      o == LoadOutcome(store, [], [], Failure(AssetURL(Catalog[key], config, net).error))
    ensures key in Catalog && AssetURL(Catalog[key], config, net).Success? && IsHit(store, key) ==>
      o == LoadOutcome(store, [], [], Success(store[key].file.value))
    ensures key in Catalog && AssetURL(Catalog[key], config, net).Success? && !IsHit(store, key) ==>
      && |o.requests| == 1
      && o.requests[0].url == AssetURL(Catalog[key], config, net).value
      && o.requests[0].options ==
           MergeFetchOptions(DefaultFetchOptions(if key in store then Some(store[key]) else None),
                             if config.fetchArgs.Some? then config.fetchArgs.value else map[])
    ensures key in Catalog && AssetURL(Catalog[key], config, net).Success? && !IsHit(store, key) ==>
      |o.requests| == 1 && o == Download(store, key, o.requests[0], config, net)
    ensures key in Catalog && AssetURL(Catalog[key], config, net).Success? && !IsHit(store, key) ==>
      var fetched := net.fetch(o.requests[0]);
      fetched.Success? && ReadBody(fetched.value, Catalog[key], key, config.progress.Some?).Success? ==>
        var body := ReadBody(fetched.value, Catalog[key], key, config.progress.Some?).value;
        && o.events == body.1
        && (body.0.Size() == Catalog[key].size ==>
              && o.result == Success(body.0)
              && o.store == store[key := StoredFile(Some(body.0), KeptLastModified(fetched.value))])
    ensures o.result.Success? && !IsHit(store, key) ==>
      && key in Catalog
      && o.result.value.Size() == Catalog[key].size
      && key in o.store && o.store == store[key := o.store[key]]
      && o.store[key].file == Some(o.result.value)
    ensures o.result.Failure? ==> o.store == store
    ensures o.result.Failure? && o.result.error.UnknownAsset? ==> key !in Catalog
    ensures o.result.Failure? && o.result.error.SizeMismatch? ==>
      o.result.error == SizeMismatch(key, Catalog[key].size, o.result.error.actual)
      && o.result.error.actual != Catalog[key].size
  {
    if key !in Catalog then LoadOutcome(store, [], [], Failure(UnknownAsset(key)))
    else
      var entry := Catalog[key];
      match AssetURL(entry, config, net)
      case Failure(e) => LoadOutcome(store, [], [], Failure(e))
      case Success(url) =>
        var userConfig := if config.fetchArgs.Some? then config.fetchArgs.value else map[];
        var storedFile := if key in store then Some(store[key]) else None;
        if IsHit(store, key) then LoadOutcome(store, [], [], Success(store[key].file.value))
        else Download(store, key, Request(url, MergeFetchOptions(DefaultFetchOptions(storedFile), userConfig)), config, net)
  }

  /**
   * The miss path of `load`: one request, the body read, its size checked
   * against the catalog, and the file stored only when the size matches.
   */
  function Download(store: Store, key: string, request: Request, config: Config, net: Network): (o: LoadOutcome)
    requires key in Catalog
    ensures o.requests == [request]
    ensures net.fetch(request).Failure? ==>
      o == LoadOutcome(store, [request], [], Failure(TransportFailed(net.fetch(request).error)))
    ensures net.fetch(request).Success? ==>
      var body := ReadBody(net.fetch(request).value, Catalog[key], key, config.progress.Some?);
      && (body.Failure? ==> o == LoadOutcome(store, [request], [], Failure(body.error)))
      && (body.Success? ==>
            && o.events == body.value.1
            && (o.result.Success? <==> body.value.0.Size() == Catalog[key].size)
            && (o.result.Success? ==>
                  && o.result.value == body.value.0
                  && o.store == store[key := StoredFile(Some(body.value.0), KeptLastModified(net.fetch(request).value))])
            && (o.result.Failure? ==>
                  o.result.error == SizeMismatch(key, Catalog[key].size, body.value.0.Size())))
    ensures o.result.Success? ==>
      && o.result.value.Size() == Catalog[key].size
      && key in o.store && o.store == store[key := o.store[key]]
      && o.store[key].file == Some(o.result.value)
    ensures o.result.Failure? ==> o.store == store
    ensures o.result.Failure? ==> !o.result.error.UnknownAsset?
  {
    var entry := Catalog[key];
    match net.fetch(request)
    case Failure(reason) => LoadOutcome(store, [request], [], Failure(TransportFailed(reason)))
    case Success(response) =>
      match ReadBody(response, entry, key, config.progress.Some?)
      case Failure(e) => LoadOutcome(store, [request], [], Failure(e))
      case Success((data, events)) =>
        if data.Size() != entry.size then
          LoadOutcome(store, [request], events, Failure(SizeMismatch(key, entry.size, data.Size())))
        else
          var stored := StoredFile(Some(data), KeptLastModified(response));
          LoadOutcome(store[key := stored], [request], events, Success(data))
  }

  /** Every stored file under a catalog key has the catalog's size. */
  predicate StoreConsistent(store: Store) {
    forall k :: k in store && k in Catalog && store[k].file.Some? ==>
      store[k].file.value.Size() == Catalog[k].size
  }

  /**
   * The store invariant is kept by `load`, and under it every file `load`
   * returns, hit or miss, has the catalog's size.
   */
  lemma LoadKeepsStoreConsistent(store: Store, key: string, config: Config, net: Network)
    requires StoreConsistent(store)
    ensures StoreConsistent(Load(store, key, config, net).store)
    ensures Load(store, key, config, net).result.Success? ==>
      key in Catalog && Load(store, key, config, net).result.value.Size() == Catalog[key].size
  {
  }

  /** A second `load` after a successful one is a hit: same bytes, no request. */
  lemma LoadTwiceHits(store: Store, key: string, config: Config, net: Network)
    requires Load(store, key, config, net).result.Success?
    ensures var first := Load(store, key, config, net);
      var second := Load(first.store, key, config, net);
      second.requests == [] && second.result == first.result && second.store == first.store
  {
  }

  /**
   * A rejected download is not retained: the next `load` of the key goes to
   * the network again (the asset URL resolving, as it did the first time).
   */
  lemma RejectedDownloadRefetches(store: Store, key: string, config: Config, net: Network)
    requires key in Catalog && !IsHit(store, key)
    ensures Load(store, key, config, net).result.Failure? && AssetURL(Catalog[key], config, net).Success? ==>
      |Load(Load(store, key, config, net).store, key, config, net).requests| == 1
  {
  }

  /**
   * On a miss, `load` rejects a fetch failure, a body failure and a body whose
   * size differs from the catalog's, and stores nothing in each case.
   */
  lemma LoadRejectsBadDownloads(store: Store, key: string, config: Config, net: Network)
    requires key in Catalog && AssetURL(Catalog[key], config, net).Success? && !IsHit(store, key)
    ensures var o := Load(store, key, config, net);
      var fetched := net.fetch(o.requests[0]);
      && (fetched.Failure? ==> o.result == Failure(TransportFailed(fetched.error)) && o.store == store)
      && (fetched.Success? ==>
            var body := ReadBody(fetched.value, Catalog[key], key, config.progress.Some?);
            && (body.Failure? ==> o.result == Failure(body.error) && o.store == store)
            && (body.Success? && body.value.0.Size() != Catalog[key].size ==>
                  o.result == Failure(SizeMismatch(key, Catalog[key].size, body.value.0.Size())) && o.store == store))
  {
  }

  /**
   * The `lastModifiedDate` a download stores is the response's `Last-Modified`
   * header when the status is 200 and the header is non-empty, and absent
   * otherwise.
   */
  lemma LastModifiedOnlyFrom200(store: Store, key: string, config: Config, net: Network)
    ensures var o := Load(store, key, config, net);
      !IsHit(store, key) && o.result.Success? ==>
        && |o.requests| == 1 && net.fetch(o.requests[0]).Success? && key in o.store
        && var response := net.fetch(o.requests[0]).value;
           && (o.store[key].lastModifiedDate.Some? <==>
                 response.status == 200 && response.lastModified.Some? && response.lastModified.value != "")
           && (o.store[key].lastModifiedDate.Some? ==> o.store[key].lastModifiedDate == response.lastModified)
  {
  }

  datatype PreloadOutcome = PreloadOutcome(entries: map<string, Entry>, launched: seq<string>)

  /**
   * `preload`: a copy of the catalog, returned without waiting for the
   * per-key loads it starts, one per key in catalog order.
   */
  function Preload(): (o: PreloadOutcome)
    ensures o.entries.Keys == {"small", "medium", "ort-wasm-simd-threaded.wasm", "ort-wasm-simd.wasm",
                               "ort-wasm-threaded.wasm", "ort-wasm.wasm"}
    ensures forall k :: k in o.entries ==> o.entries[k] == Catalog[k]
    ensures |o.launched| == 6 && forall k :: k in o.launched <==> k in o.entries
  {
    PreloadOutcome(Catalog, CatalogKeys)
  }

  /** Every key `preload` starts loading is in the catalog, so none of those loads fails as unknown. */
  lemma PreloadLaunchesKnownKeys(store: Store, config: Config, net: Network)
    ensures forall k :: k in Preload().launched ==> k in Catalog
    ensures forall k :: k in Preload().launched ==>
      Load(store, k, config, net).result != Failure(UnknownAsset(k))
  {
    forall k | k in Preload().launched
      ensures Load(store, k, config, net).result != Failure(UnknownAsset(k))
    {
      assert k in Catalog;
    }
  }
}

=== FILE: inference.dfy ===
/**
 * The inference pipeline (src/inference.ts): resize to the model's fixed
 * 1024 x 1024 input, pack into a planar tensor, run the session, write the
 * predicted mask into the alpha bytes, and resize back to an
 * aspect-preserving size no larger than the source. Resampling is a
 * function parameter that returns an image of the requested size.
 */
module Inference {
  import opened Wrappers
  import opened Schema
  import Utils
  import OrtWebRt

  const Resolution: nat := 1024
  /** Pixels in the working image: `Resolution * Resolution`. */
  const Stride: nat := 1048576

  const InputDims: seq<int> := [1, 3, 1024, 1024]
  const ProgressKey := "compute:inference"
  const StartEvent := ProgressEvent(ProgressKey, 0, 1)
  const EndEvent := ProgressEvent(ProgressKey, 1, 1)

  /** `imageDataResize(image, width, height)`. */
  type Resizer = (Image, nat, nat) -> Image

  /** Resampling yields a well-formed image of exactly the requested size. */
  ghost predicate ResizesTo(resize: Resizer) {
    forall img: Image, w: nat, h: nat {:trigger resize(img, w, h)} ::
      resize(img, w, h).width == w && resize(img, w, h).height == h && resize(img, w, h).Valid()
  }

  /**
   * Storing a number into a `Uint8ClampedArray`: values at or below zero
   * (and NaN) become 0, values at or above 255 become 255, anything between
   * is rounded to the nearest integer.
   */
  function ClampToByte(x: real): (b: Byte)
    ensures x <= 0.0 ==> b == 0
    ensures x >= 255.0 ==> b == 255
    ensures 0.0 < x < 255.0 ==> x - 0.5 < b as real <= x + 0.5
  {
    if x <= 0.0 then 0 else if x >= 255.0 then 255 else (x + 0.5).Floor
  }

  /**
   * The alpha byte for pixel `k`: the mask value times 255, clamped. A mask
   * shorter than the image reads `undefined`, whose product is NaN, stored as 0.
   */
  function MaskAlpha(mask: seq<real>, k: nat): (a: Byte)
    ensures a == 0 <==> k >= |mask| || mask[k] * 255.0 < 0.5
    ensures a == 255 <==> k < |mask| && mask[k] * 255.0 >= 254.5
  {
    if k < |mask| then ClampToByte(mask[k] * 255.0) else 0
  }

  /**
   * The alpha byte is 0 past the mask's end or for a non-positive
   * prediction, 255 for a prediction of one or more, and otherwise the
   * prediction scaled to 0..255 and rounded.
   */
  lemma MaskAlphaRange(mask: seq<real>, k: nat)
    ensures k >= |mask| ==> MaskAlpha(mask, k) == 0
    ensures k < |mask| && mask[k] <= 0.0 ==> MaskAlpha(mask, k) == 0
    ensures k < |mask| && mask[k] >= 1.0 ==> MaskAlpha(mask, k) == 255
    ensures k < |mask| && 0.0 < mask[k] < 1.0 ==>
      mask[k] * 255.0 - 0.5 < MaskAlpha(mask, k) as real <= mask[k] * 255.0 + 0.5
  {
    if k < |mask| && mask[k] >= 1.0 {
      assert mask[k] * 255.0 >= 255.0;
    }
  }

  /** The interleaved buffer with every alpha byte taken from the mask. */
  function WithMask(data: seq<Byte>, mask: seq<real>, n: nat): (r: seq<Byte>)
    requires |data| == 4 * n
    ensures |r| == |data|
    ensures forall k :: 0 <= k < n ==>
      && r[4 * k] == data[4 * k] && r[4 * k + 1] == data[4 * k + 1] && r[4 * k + 2] == data[4 * k + 2]
      && r[4 * k + 3] == MaskAlpha(mask, k)
  {
    var r := seq(|data|, i requires 0 <= i < |data| => MaskedAt(data, mask, i));
    assert forall k :: 0 <= k < n ==>
      && r[4 * k] == data[4 * k] && r[4 * k + 1] == data[4 * k + 1] && r[4 * k + 2] == data[4 * k + 2]
      && r[4 * k + 3] == MaskAlpha(mask, k)
    by {
      forall k | 0 <= k < n
        ensures r[4 * k] == data[4 * k] && r[4 * k + 1] == data[4 * k + 1] && r[4 * k + 2] == data[4 * k + 2]
        ensures r[4 * k + 3] == MaskAlpha(mask, k)
      {
        MaskedAtPixel(data, mask, k);
      }
    }
    r
  }

  /** Byte `i` of the masked buffer: every fourth byte is an alpha taken from the mask. */
  function MaskedAt(data: seq<Byte>, mask: seq<real>, i: nat): Byte
    requires i < |data|
  {
    if i % 4 == 3 then MaskAlpha(mask, i / 4) else data[i]
  }

  lemma MaskedAtPixel(data: seq<Byte>, mask: seq<real>, k: nat)
    requires 4 * k + 3 < |data|
    ensures MaskedAt(data, mask, 4 * k) == data[4 * k]
    ensures MaskedAt(data, mask, 4 * k + 1) == data[4 * k + 1]
    ensures MaskedAt(data, mask, 4 * k + 2) == data[4 * k + 2]
    ensures MaskedAt(data, mask, 4 * k + 3) == MaskAlpha(mask, k)
  {
    PixelOffsets(k);
  }

  lemma PixelOffsets(k: int)
    ensures (4 * k) % 4 == 0 && (4 * k + 1) % 4 == 1 && (4 * k + 2) % 4 == 2
    ensures (4 * k + 3) % 4 == 3 && (4 * k + 3) / 4 == k
  {
  }

  /** The mask loop as written: `i` steps by four over `4 * stride` bytes, writing byte `i + 3`. */
  method WriteMask(data: seq<Byte>, mask: seq<real>, stride: nat) returns (r: seq<Byte>)
    requires |data| == 4 * stride
    ensures r == WithMask(data, mask, stride)
  {
    r := data;
    var i := 0;
    while i < 4 * stride
      invariant 0 <= i <= 4 * stride && i % 4 == 0
      invariant |r| == |data|
      invariant forall t :: 0 <= t < |data| ==>
        r[t] == (if t < i && t % 4 == 3 then MaskAlpha(mask, t / 4) else data[t])
    {
      var idx := i / 4;
      r := r[i + 3 := MaskAlpha(mask, idx)];
      i := i + 4;
    }
  }

  /** A mask of ones makes every pixel opaque; a mask of zeros makes every pixel transparent. */
  lemma MaskExtremes(data: seq<Byte>, mask: seq<real>, n: nat)
    requires |data| == 4 * n && |mask| >= n
    ensures (forall k :: 0 <= k < n ==> mask[k] == 1.0) ==>
      forall k :: 0 <= k < n ==> WithMask(data, mask, n)[4 * k + 3] == 255
    ensures (forall k :: 0 <= k < n ==> mask[k] == 0.0) ==>
      forall k :: 0 <= k < n ==> WithMask(data, mask, n)[4 * k + 3] == 0
  {
  }

  /**
   * The output size: the proportional fit of the source into 1024 x 1024,
   * clamped so that neither side exceeds the source.
   */
  function OutputSize(srcWidth: nat, srcHeight: nat): (r: (int, int))
    requires srcWidth > 0 && srcHeight > 0
    ensures 0 <= r.0 <= srcWidth && 0 <= r.1 <= srcHeight
    ensures r.0 <= Resolution && r.1 <= Resolution
    ensures var fit := Utils.CalculateProportionalSize(srcWidth, srcHeight, Resolution, Resolution);
      r.0 <= fit.0 && r.1 <= fit.1
    ensures srcWidth <= Resolution && srcHeight <= Resolution ==> r == (srcWidth, srcHeight)
    ensures var fit := Utils.CalculateProportionalSize(srcWidth, srcHeight, Resolution, Resolution);
      (r.0 == fit.0 || r.0 == srcWidth) && (r.1 == fit.1 || r.1 == srcHeight)
  {
    var fit := Utils.CalculateProportionalSize(srcWidth, srcHeight, Resolution, Resolution);
    (if fit.0 <= srcWidth then fit.0 else srcWidth, if fit.1 <= srcHeight then fit.1 else srcHeight)
  }

  /** A source so elongated that one side floors to zero. */
  lemma OutputSizeCanBeZero()
    ensures OutputSize(1, 2048) == (0, 1024)
  {
    var fit := Utils.CalculateProportionalSize(1, 2048, Resolution, Resolution);
    assert Utils.Min(1024.0 / 1.0, 1024.0 / 2048.0) == 0.5;
    assert fit == (0, 1024);
  }

  /**
   * The output has no zero side exactly when neither side is more than 1024
   * times the other: past that, the shorter side floors to zero.
   */
  lemma OutputSizePositive(srcWidth: nat, srcHeight: nat)
    requires srcWidth > 0 && srcHeight > 0
    ensures OutputSize(srcWidth, srcHeight).0 > 0 && OutputSize(srcWidth, srcHeight).1 > 0
      <==> Resolution * srcWidth >= srcHeight && Resolution * srcHeight >= srcWidth
  {
    var fit := Utils.CalculateProportionalSize(srcWidth, srcHeight, Resolution, Resolution);
    var out := OutputSize(srcWidth, srcHeight);
    assert out.0 == (if fit.0 <= srcWidth then fit.0 else srcWidth);
    assert out.1 == (if fit.1 <= srcHeight then fit.1 else srcHeight);
    if srcHeight <= srcWidth {
      ShortSideFit(srcWidth, srcHeight);
    } else {
      ShortSideFit(srcHeight, srcWidth);
      Utils.FactorSwap(srcWidth, srcHeight, Resolution, Resolution);
    }
  }

  /** In the fit of a `long` x `short` source the long side reaches 1024 and the short one is positive exactly when `1024 * short >= long`. */
  lemma ShortSideFit(long: nat, short: nat)
    requires 0 < short <= long
    ensures Utils.CalculateProportionalSize(long, short, Resolution, Resolution).0 == Resolution
    ensures Utils.CalculateProportionalSize(long, short, Resolution, Resolution).1 > 0 <==> Resolution * short >= long
    ensures Utils.CalculateProportionalSize(short, long, Resolution, Resolution).0
      == Utils.CalculateProportionalSize(long, short, Resolution, Resolution).1
    ensures Utils.CalculateProportionalSize(short, long, Resolution, Resolution).1 == Resolution
  {
    var factor := Utils.Factor(long, short, Resolution, Resolution);
    assert factor == Resolution as real / long as real by {
      RatioOrder(Resolution, long, short);
    }
    Utils.ProportionalSizeIsScaled(long, short, Resolution, Resolution);
    Utils.ProportionalSizeIsScaled(short, long, Resolution, Resolution);
    Utils.FactorSwap(long, short, Resolution, Resolution);
    assert Utils.Factor(short, long, Resolution, Resolution) == factor;
    assert (long as real * factor).Floor == Resolution by {
      assert long as real * (Resolution as real / long as real) == Resolution as real;
    }
    FloorScaledPositive(short, long, Resolution);
  }

  /** Of two sides, the longer has the smaller ratio to a common bound. */
  lemma RatioOrder(bound: nat, x: nat, y: nat)
    requires bound > 0 && x > 0 && y > 0
    ensures bound as real / x as real <= bound as real / y as real <==> y <= x
  {
    var b, rx, ry := bound as real, x as real, y as real;
    assert b / rx * (rx * ry) == b * ry;
    assert b / ry * (rx * ry) == b * rx;
    if b / rx <= b / ry {
      Utils.MulMono(b / rx, b / ry, rx * ry);
    }
    if y <= x {
      Utils.MulMono(b * ry, b * rx, 1.0 / (rx * ry));
      assert b * ry * (1.0 / (rx * ry)) == b / rx;
      assert b * rx * (1.0 / (rx * ry)) == b / ry;
    }
  }

  /** `a` scaled by `c / b` floors to a positive number exactly when `a * c >= b`. */
  lemma FloorScaledPositive(a: nat, b: nat, c: nat)
    requires b > 0
    ensures (a as real * (c as real / b as real)).Floor > 0 <==> a * c >= b
  {
    var ra, rb, rc := a as real, b as real, c as real;
    var x := ra * (rc / rb);
    assert x * rb == ra * rc;
    if a * c >= b {
      Utils.MulMono(rb, ra * rc, 1.0 / rb);
      assert ra * rc * (1.0 / rb) == x;
    }
    if x >= 1.0 {
      Utils.MulMono(1.0, x, rb);
    }
  }

  datatype InferenceOutcome = InferenceOutcome(
    events: seq<ProgressEvent>,
    input: Option<Tensor>,
    result: Result<Image, Error>)

  function StartEvents(config: Config): seq<ProgressEvent> {
    if config.progress.Some? then [StartEvent] else []
  }

  /** The tensor fed to the model for a source image: the planar encoding of its 1024 x 1024 resampling. */
  function InputTensor(image: Image, resize: Resizer): (t: Tensor)
    requires ResizesTo(resize)
    ensures t.shape == InputDims && t.dataType == "float32" && |t.data| == 3 * Stride
  {
    var resized := resize(image, Resolution, Resolution);
    Tensor(Utils.Planar(resized, Utils.DefaultMean, Utils.DefaultStd), InputDims, "float32")
  }

  /**
   * `runInference(imageData, config, imports, session)`. Without a runtime
   * or a session the source image comes back unchanged after the start
   * event; otherwise the end event follows a successful pass. Resizing to a
   * zero dimension is rejected by the platform.
   */
  function RunInference(image: Image, config: Config, hasImports: bool, session: Option<OrtWebRt.SessionRun>, resize: Resizer): (o: InferenceOutcome)
    requires image.Valid() && image.width > 0 && image.height > 0
    requires ResizesTo(resize)
    ensures !hasImports || session.None? ==>
      o == InferenceOutcome(StartEvents(config), None, Success(image))
    ensures hasImports && session.Some? ==> o.input == Some(InputTensor(image, resize))
    ensures hasImports && session.Some? && o.result.Success? ==>
      && o.result.value.width == OutputSize(image.width, image.height).0
      && o.result.value.height == OutputSize(image.width, image.height).1
      && o.result.value.Valid()
      && o.events == StartEvents(config) + (if config.progress.Some? then [EndEvent] else [])
    ensures o.result.Failure? ==> o.events == StartEvents(config)
    ensures hasImports && session.Some? ==>
      var out := OrtWebRt.RunSession(session.value, [("input", InputTensor(image, resize))], ["output"]);
      var size := OutputSize(image.width, image.height);
      && (o.result.Success? <==> out.Success? && size.0 > 0 && size.1 > 0)
      && (out.Failure? ==> o.result == Failure(out.error))
      && (out.Success? && (size.0 == 0 || size.1 == 0) ==> o.result == Failure(ResizeRejected(size.0, size.1)))
    ensures hasImports && session.Some? && o.result.Success? ==>
      var out := OrtWebRt.RunSession(session.value, [("input", InputTensor(image, resize))], ["output"]);
      var resized := resize(image, Resolution, Resolution);
      var size := OutputSize(image.width, image.height);
      && out.Success?
      && o.result.value == resize(Image(Resolution, Resolution, WithMask(resized.data, out.value[0].data, Stride)), size.0, size.1)
  {
    var start := StartEvents(config);
    if !hasImports || session.None? then InferenceOutcome(start, None, Success(image))
    else
      var tensorImage := resize(image, Resolution, Resolution);
      var input := InputTensor(image, resize);
      match OrtWebRt.RunSession(session.value, [("input", input)], ["output"])
      case Failure(e) => InferenceOutcome(start, Some(input), Failure(e))
      case Success(predictions) =>
        var masked := Image(Resolution, Resolution, WithMask(tensorImage.data, predictions[0].data, Stride));
        var size := OutputSize(image.width, image.height);
        if size.0 == 0 || size.1 == 0 then
          InferenceOutcome(start, Some(input), Failure(ResizeRejected(size.0, size.1)))
        else
          var end := if config.progress.Some? then [EndEvent] else [];
          InferenceOutcome(start + end, Some(input), Success(resize(masked, size.0, size.1)))
  }

  /**
   * On the full path, a run whose session yields an `output` tensor, for a
   * source neither of whose sides is more than 1024 times the other (so no
   * side shrinks to zero), succeeds; with a progress callback it reports
   * exactly the start and the end of inference.
   */
  lemma FullPathSucceeds(image: Image, config: Config, run: OrtWebRt.SessionRun, resize: Resizer)
    requires image.Valid() && image.width > 0 && image.height > 0
    requires ResizesTo(resize)
    requires var feeds := OrtWebRt.Feeds([("input", InputTensor(image, resize))]);
      run(feeds).Success? && "output" in run(feeds).value
    requires Resolution * image.width >= image.height && Resolution * image.height >= image.width
    ensures var o := RunInference(image, config, true, Some(run), resize);
      && o.result.Success?
      && (config.progress.Some? ==> o.events == [StartEvent, EndEvent])
      && (config.progress.None? ==> o.events == [])
  {
    var out := OrtWebRt.RunSession(run, [("input", InputTensor(image, resize))], ["output"]);
    assert out.Success?;
    OutputSizePositive(image.width, image.height);
  }

  /** A source within 1024 x 1024 comes back at exactly its own size. */
  lemma SmallSourceKeepsSize(image: Image, config: Config, run: OrtWebRt.SessionRun, resize: Resizer)
    requires image.Valid() && 0 < image.width <= Resolution && 0 < image.height <= Resolution
    requires ResizesTo(resize)
    ensures var o := RunInference(image, config, true, Some(run), resize);
      o.result.Success? ==> o.result.value.width == image.width && o.result.value.height == image.height
  {
  }
}

=== FILE: ort_web_rt.dfy ===
/**
 * The onnxruntime-web adapter (src/ort-web-rt.ts): the four lazily filled
 * wasm slots, the capability-derived runtime settings, the wrapping of
 * session-creation errors, and the marshalling of tensors in and out of a
 * session run. The runtime itself (session creation and `session.run`) and
 * `URL.createObjectURL` are function parameters.
 */
module OrtWebRt {
  import opened Wrappers
  import opened Schema
  import Bundle

  const SimdThreadedWasm := "ort-wasm-simd-threaded.wasm"
  const SimdWasm := "ort-wasm-simd.wasm"
  const ThreadedWasm := "ort-wasm-threaded.wasm"
  const PlainWasm := "ort-wasm.wasm"

  /** The backend files, in the order `createSession` loads them; slot `i` memoises file `i`. */
  const WasmFiles: seq<string> := [SimdThreadedWasm, SimdWasm, ThreadedWasm, PlainWasm]

  /** What the host reports: wasm-feature-detect, `crossOriginIsolated`, `hardwareConcurrency`, WebGPU. */
  datatype Host = Host(
    simd: bool,
    threads: bool,
    sharedArrayBuffer: bool,
    crossOriginIsolated: bool,
    hardwareConcurrency: nat,
    gpu: bool)

  datatype Capabilities = Capabilities(
    simd: bool,
    threads: bool,
    sharedArrayBuffer: bool,
    numThreads: real,
    webgpu: bool)

  /** The `ort.env.wasm` settings a session is created under. */
  datatype WasmEnv = WasmEnv(numThreads: real, simd: bool, proxy: bool, wasmPaths: map<string, string>)

  datatype SessionOptions = SessionOptions(executionProviders: seq<string>, graphOptimizationLevel: string, executionMode: string)

  const SessionConfig := SessionOptions(["wasm"], "all", "parallel")

  /** The module-level state that outlives a call: the four slots and durable storage. */
  datatype RuntimeState = RuntimeState(slots: seq<Option<Bundle.Blob>>, store: Bundle.Store)

  const EmptySlots: seq<Option<Bundle.Blob>> := [None, None, None, None]

  datatype FillOutcome = FillOutcome(
    slots: seq<Option<Bundle.Blob>>,
    store: Bundle.Store,
    loads: seq<string>,
    events: seq<ProgressEvent>,
    failure: Option<Error>)

  /** `Bundle.load(key, config)` against a store, for a fixed configuration and network. */
  type Loader = (Bundle.Store, string) -> Bundle.LoadOutcome

  /** The loader `createSession` uses: `Bundle.load` under the caller's configuration. */
  function BundleLoader(config: Config, net: Bundle.Network): Loader {
    (store, key) => Bundle.Load(store, key, config, net)
  }

  /** The files of the slots from `i` on that are still empty, in slot order. */
  function EmptyFiles(slots: seq<Option<Bundle.Blob>>, i: nat): seq<string>
    requires |slots| == 4 && i <= 4
    decreases 4 - i
  {
    if i == 4 then []
    else (if slots[i].None? then [WasmFiles[i]] else []) + EmptyFiles(slots, i + 1)
  }

  /** Only the slots from `i` on decide `EmptyFiles(slots, i)`. */
  lemma {:induction false} EmptyFilesFrom(slots: seq<Option<Bundle.Blob>>, slots': seq<Option<Bundle.Blob>>, i: nat)
    requires |slots| == 4 && |slots'| == 4 && i <= 4
    requires forall j :: i <= j < 4 ==> slots[j] == slots'[j]
    ensures EmptyFiles(slots, i) == EmptyFiles(slots', i)
    decreases 4 - i
  {
    if i < 4 {
      EmptyFilesFrom(slots, slots', i + 1);
    }
  }

  /** Some call of the loader rejects `file` with `error`. */
  ghost predicate RejectedBy(load: Loader, file: string, error: Error) {
    exists store :: load(store, file).result == Failure(error)
  }

  /** Some call of the loader resolves `file` to `blob`. */
  ghost predicate LoadedBy(load: Loader, file: string, blob: Bundle.Blob) {
    exists store :: load(store, file).result == Success(blob)
  }

  /**
   * `slot = slot || await Bundle.load(file, config)` for slots `i..3` in
   * order: an empty slot is loaded, a filled one is left alone, and the
   * first rejected load ends the sequence.
   */
  function FillSlots(slots: seq<Option<Bundle.Blob>>, i: nat, store: Bundle.Store, load: Loader): (o: FillOutcome)
    requires |slots| == 4 && i <= 4
    ensures |o.slots| == 4
    ensures forall j :: 0 <= j < 4 && (j < i || slots[j].Some?) ==> o.slots[j] == slots[j]
    ensures o.failure.None? ==> forall j :: i <= j < 4 ==> o.slots[j].Some?
    ensures o.failure.Some? ==> |o.loads| > 0
    ensures (forall j :: i <= j < 4 ==> slots[j].Some?) ==> o == FillOutcome(slots, store, [], [], None)
    decreases 4 - i
  {
    if i == 4 then FillOutcome(slots, store, [], [], None)
    else if slots[i].Some? then FillSlots(slots, i + 1, store, load)
    else
      var loaded := load(store, WasmFiles[i]);
      match loaded.result
      case Failure(e) => FillOutcome(slots, loaded.store, [WasmFiles[i]], loaded.events, Some(e))
      case Success(blob) =>
        var slots' := slots[i := Some(blob)];
        var rest := FillSlots(slots', i + 1, loaded.store, load);
        rest.(loads := [WasmFiles[i]] + rest.loads, events := loaded.events + rest.events)
  }

  /** The files loaded are the empty slots' files in slot order: all of them, or up to the one rejected. */
  lemma {:induction false} FillSlotsLoadsInOrder(slots: seq<Option<Bundle.Blob>>, i: nat, store: Bundle.Store, load: Loader)
    requires |slots| == 4 && i <= 4
    ensures var o := FillSlots(slots, i, store, load);
      && (o.failure.None? ==> o.loads == EmptyFiles(slots, i))
      && (o.failure.Some? ==> o.loads <= EmptyFiles(slots, i))
    decreases 4 - i
  {
    if i < 4 {
      var o := FillSlots(slots, i, store, load);
      if slots[i].Some? {
        FillSlotsLoadsInOrder(slots, i + 1, store, load);
        assert o == FillSlots(slots, i + 1, store, load);
        assert EmptyFiles(slots, i) == EmptyFiles(slots, i + 1);
      } else {
        var loaded := load(store, WasmFiles[i]);
        assert EmptyFiles(slots, i) == [WasmFiles[i]] + EmptyFiles(slots, i + 1);
        if loaded.result.Success? {
          var slots' := slots[i := Some(loaded.result.value)];
          var rest := FillSlots(slots', i + 1, loaded.store, load);
          FillSlotsLoadsInOrder(slots', i + 1, loaded.store, load);
          EmptyFilesFrom(slots, slots', i + 1);
          assert o.loads == [WasmFiles[i]] + rest.loads && o.failure == rest.failure;
          PrefixCons(WasmFiles[i], rest.loads, EmptyFiles(slots, i + 1));
        } else {
          assert o.loads == [WasmFiles[i]];
        }
      }
    }
  }

  lemma PrefixCons<T>(x: T, a: seq<T>, b: seq<T>)
    requires a <= b
    ensures [x] + a <= [x] + b
  {
    assert ([x] + b)[..|[x] + a|] == [x] + b[..|a|];
  }

  /** A loader that resolves every file on every store. */
  ghost predicate NeverRejects(load: Loader) {
    forall st, f :: load(st, f).result.Success?
  }

  /** The call fails only through the loader: the failure is the rejection of the last file loaded. */
  lemma FillSlotsFailsByRejection(slots: seq<Option<Bundle.Blob>>, i: nat, store: Bundle.Store, load: Loader)
    requires |slots| == 4 && i <= 4
    ensures var o := FillSlots(slots, i, store, load);
      o.failure.Some? ==> RejectedBy(load, o.loads[|o.loads| - 1], o.failure.value)
  {
    var st := RejectingStore(slots, i, store, load);
  }

  /** The store the rejected load of `FillSlots` ran against. */
  lemma {:induction false} RejectingStore(slots: seq<Option<Bundle.Blob>>, i: nat, store: Bundle.Store, load: Loader)
    returns (st: Bundle.Store)
    requires |slots| == 4 && i <= 4
    ensures var o := FillSlots(slots, i, store, load);
      o.failure.Some? ==> load(st, o.loads[|o.loads| - 1]).result == Failure(o.failure.value)
    decreases 4 - i
  {
    st := store;
    if i < 4 {
      if slots[i].Some? {
        st := RejectingStore(slots, i + 1, store, load);
        FilledSlotSkipped(slots, i, store, load);
      } else if load(store, WasmFiles[i]).result.Success? {
        var loaded := load(store, WasmFiles[i]);
        st := RejectingStore(slots[i := Some(loaded.result.value)], i + 1, loaded.store, load);
        RejectionCarriesOver(slots, i, store, load, st);
      } else {
        RejectionAtSlot(slots, i, store, load);
      }
    }
  }

  /** A slot that already holds a blob is passed over. */
  lemma FilledSlotSkipped(slots: seq<Option<Bundle.Blob>>, i: nat, store: Bundle.Store, load: Loader)
    requires |slots| == 4 && i < 4 && slots[i].Some?
    ensures FillSlots(slots, i, store, load) == FillSlots(slots, i + 1, store, load)
  {
  }

  /** A rejected load of an empty slot ends `FillSlots` with that load's error. */
  lemma RejectionAtSlot(slots: seq<Option<Bundle.Blob>>, i: nat, store: Bundle.Store, load: Loader)
    requires |slots| == 4 && i < 4 && slots[i].None? && load(store, WasmFiles[i]).result.Failure?
    ensures var o := FillSlots(slots, i, store, load);
      o.failure.Some? ==> load(store, o.loads[|o.loads| - 1]).result == Failure(o.failure.value)
  {
    var loaded := load(store, WasmFiles[i]);
    assert FillSlots(slots, i, store, load) == FillOutcome(slots, loaded.store, [WasmFiles[i]], loaded.events, Some(loaded.result.error));
  }

  /** After a resolved load, `FillSlots` fails exactly as the rest of the sequence does, on the same last file. */
  lemma RejectionCarriesOver(slots: seq<Option<Bundle.Blob>>, i: nat, store: Bundle.Store, load: Loader, st: Bundle.Store)
    requires |slots| == 4 && i < 4 && slots[i].None? && load(store, WasmFiles[i]).result.Success?
    requires var loaded := load(store, WasmFiles[i]);
      var rest := FillSlots(slots[i := Some(loaded.result.value)], i + 1, loaded.store, load);
      rest.failure.Some? ==> load(st, rest.loads[|rest.loads| - 1]).result == Failure(rest.failure.value)
    ensures var o := FillSlots(slots, i, store, load);
      o.failure.Some? ==> load(st, o.loads[|o.loads| - 1]).result == Failure(o.failure.value)
  {
    var loaded := load(store, WasmFiles[i]);
    var rest := FillSlots(slots[i := Some(loaded.result.value)], i + 1, loaded.store, load);
    var o := FillSlots(slots, i, store, load);
    assert o.loads == [WasmFiles[i]] + rest.loads && o.failure == rest.failure;
    if rest.failure.Some? {
      assert o.loads[|o.loads| - 1] == rest.loads[|rest.loads| - 1];
    }
  }

  /** With a loader that never rejects, every empty slot is filled and nothing fails. */
  lemma {:induction false} FillSlotsWithoutRejection(slots: seq<Option<Bundle.Blob>>, i: nat, store: Bundle.Store, load: Loader)
    requires |slots| == 4 && i <= 4
    requires NeverRejects(load)
    ensures FillSlots(slots, i, store, load).failure.None?
    decreases 4 - i
  {
    if i < 4 {
      if slots[i].Some? {
        FillSlotsWithoutRejection(slots, i + 1, store, load);
      } else {
        var loaded := load(store, WasmFiles[i]);
        assert loaded.result.Success?;
        var slots' := slots[i := Some(loaded.result.value)];
        FillSlotsWithoutRejection(slots', i + 1, loaded.store, load);
      }
    }
  }

  /** Every slot the call fills holds a blob the loader resolved for that slot's file. */
  lemma {:induction false} FillSlotsFromLoader(slots: seq<Option<Bundle.Blob>>, i: nat, store: Bundle.Store, load: Loader)
    requires |slots| == 4 && i <= 4
    ensures var o := FillSlots(slots, i, store, load);
      forall j :: i <= j < 4 && slots[j].None? && o.slots[j].Some? ==> LoadedBy(load, WasmFiles[j], o.slots[j].value)
    decreases 4 - i
  {
    if i < 4 && slots[i].Some? {
      FillSlotsFromLoader(slots, i + 1, store, load);
    } else if i < 4 {
      var loaded := load(store, WasmFiles[i]);
      if loaded.result.Success? {
        var slots' := slots[i := Some(loaded.result.value)];
        FillSlotsFromLoader(slots', i + 1, loaded.store, load);
        assert LoadedBy(load, WasmFiles[i], loaded.result.value);
      }
    }
  }

  /** `crossOriginIsolated ? hardwareConcurrency / 2 : 1`, a JavaScript (real) division. */
  function NumThreads(host: Host): (n: real)
    ensures !host.crossOriginIsolated ==> n == 1.0
    ensures host.crossOriginIsolated ==> 2.0 * n == host.hardwareConcurrency as real
  {
    if host.crossOriginIsolated then host.hardwareConcurrency as real / 2.0 else 1.0
  }

  /** The thread count is positive unless an isolated host reports no cores, and never exceeds one or the core count. */
  lemma NumThreadsBounds(host: Host)
    ensures NumThreads(host) > 0.0 <==> !host.crossOriginIsolated || host.hardwareConcurrency > 0
    ensures NumThreads(host) <= 1.0 || NumThreads(host) <= host.hardwareConcurrency as real
  {
  }

  /** An odd core count gives a fractional thread count, which the runtime receives unrounded. */
  lemma NumThreadsCanBeFractional()
    ensures NumThreads(Host(true, true, true, true, 3, false)) == 1.5
  {
  }

  /** The capability record `createSession` logs and configures the runtime from. */
  function DetectCapabilities(host: Host): (caps: Capabilities)
    ensures caps.simd == host.simd && caps.threads == host.threads && caps.sharedArrayBuffer == host.sharedArrayBuffer
    ensures caps.webgpu == host.gpu
    ensures caps.numThreads > 0.0 <==> !host.crossOriginIsolated || host.hardwareConcurrency > 0
    ensures !host.crossOriginIsolated ==> caps.numThreads == 1.0
    ensures caps.numThreads == NumThreads(host)
  {
    NumThreadsBounds(host);
    Capabilities(host.simd, host.threads, host.sharedArrayBuffer, NumThreads(host), host.gpu)
  }

  /** `ort.env.wasm.wasmPaths`: one object URL per backend file, keyed by the file name. */
  function WasmPaths(slots: seq<Option<Bundle.Blob>>, objectUrl: Bundle.Blob -> string): (paths: map<string, string>)
    requires |slots| == 4 && forall j :: 0 <= j < 4 ==> slots[j].Some?
    ensures paths.Keys == {"ort-wasm-simd-threaded.wasm", "ort-wasm-simd.wasm", "ort-wasm-threaded.wasm", "ort-wasm.wasm"}
    ensures forall j :: 0 <= j < 4 ==> paths[WasmFiles[j]] == objectUrl(slots[j].value)
  {
    map[
      SimdThreadedWasm := objectUrl(slots[0].value),
      SimdWasm := objectUrl(slots[1].value),
      ThreadedWasm := objectUrl(slots[2].value),
      PlainWasm := objectUrl(slots[3].value)]
  }

  const SessionErrorPrefix := "Failed to create session: "
  const HintLead := ". Please check if the "
  const HintKey := "publicPath"
  const HintTail := " is set correctly."

  /** The text of the error `createSession` throws when the runtime rejects the model. */
  function SessionErrorMessage(cause: string): (m: string)
    ensures |m| == |SessionErrorPrefix| + |cause| + |HintLead + HintKey + HintTail|
    ensures m[..|SessionErrorPrefix|] == SessionErrorPrefix
    ensures m[|SessionErrorPrefix|..|SessionErrorPrefix| + |cause|] == cause
    ensures m[|SessionErrorPrefix| + |cause|..] == HintLead + HintKey + HintTail
  {
    SessionErrorPrefix + cause + HintLead + HintKey + HintTail
  }

  predicate OccursAt(s: string, part: string, i: int) {
    0 <= i && i + |part| <= |s| && s[i..i + |part|] == part
  }

  ghost predicate Contains(s: string, part: string) {
    exists i :: OccursAt(s, part, i)
  }

  /** Distinct causes give distinct messages: the cause can be read back from the message. */
  lemma SessionErrorMessageInjective(cause: string, cause': string)
    requires SessionErrorMessage(cause) == SessionErrorMessage(cause')
    ensures cause == cause'
  {
    var m := SessionErrorMessage(cause);
    assert |cause| == |cause'|;
    assert cause == m[|SessionErrorPrefix|..|SessionErrorPrefix| + |cause|] == cause';
  }

  /** The rethrown message carries the cause and points at `publicPath`. */
  lemma SessionErrorMentionsCause(cause: string)
    ensures Contains(SessionErrorMessage(cause), cause)
    ensures Contains(SessionErrorMessage(cause), "publicPath")
  {
    var m := SessionErrorMessage(cause);
    var p := |SessionErrorPrefix|;
    assert m[p..p + |cause|] == cause;
    assert OccursAt(m, cause, p);
    var q := p + |cause| + |HintLead|;
    assert m[q..q + |HintKey|] == HintKey;
    assert OccursAt(m, HintKey, q);
  }

  datatype CreateOutcome<S> = CreateOutcome(
    state: RuntimeState,
    loads: seq<string>,
    events: seq<ProgressEvent>,
    env: Option<WasmEnv>,
    revoked: seq<string>,
    result: Result<S, Error>)

  /** The four object URLs `createSession` revokes once the session exists, in load order. */
  function RevokedURLs(env: WasmEnv): (urls: seq<string>)
    requires forall j :: 0 <= j < 4 ==> WasmFiles[j] in env.wasmPaths
    ensures |urls| == 4 && forall j :: 0 <= j < 4 ==> urls[j] == env.wasmPaths[WasmFiles[j]]
  {
    [env.wasmPaths[WasmFiles[0]], env.wasmPaths[WasmFiles[1]], env.wasmPaths[WasmFiles[2]], env.wasmPaths[WasmFiles[3]]]
  }

  /**
   * The second half of `createSession`, once every slot is filled: configure
   * `ort.env.wasm`, create the session, and revoke the object URLs after it
   * exists. A creation failure is rethrown with the hint about `publicPath`,
   * before any URL is revoked.
   */
  function StartSession<S>(
    fill: FillOutcome, model: seq<Byte>, config: Config, host: Host,
    objectUrl: Bundle.Blob -> string, create: (seq<Byte>, SessionOptions, WasmEnv) -> Result<S, string>): (o: CreateOutcome<S>)
    requires |fill.slots| == 4 && forall j :: 0 <= j < 4 ==> fill.slots[j].Some?
    ensures o.state == RuntimeState(fill.slots, fill.store) && o.loads == fill.loads && o.events == fill.events
    ensures o.env.Some?
    ensures o.env.value == WasmEnv(NumThreads(host), host.simd, config.proxyToWorker, WasmPaths(fill.slots, objectUrl))
    ensures o.result.Success? <==> create(model, SessionConfig, o.env.value).Success?
    ensures o.result.Success? ==> o.result.value == create(model, SessionConfig, o.env.value).value && o.revoked == RevokedURLs(o.env.value)
    ensures o.result.Failure? ==>
      && o.result.error == SessionFailed(SessionErrorMessage(create(model, SessionConfig, o.env.value).error))
      && o.revoked == []
  {
    var state' := RuntimeState(fill.slots, fill.store);
    var caps := DetectCapabilities(host);
    var env := WasmEnv(caps.numThreads, caps.simd, config.proxyToWorker, WasmPaths(fill.slots, objectUrl));
    match create(model, SessionConfig, env)
    case Failure(cause) =>
      CreateOutcome(state', fill.loads, fill.events, Some(env), [], Failure(SessionFailed(SessionErrorMessage(cause))))
    case Success(session) =>
      CreateOutcome(state', fill.loads, fill.events, Some(env), RevokedURLs(env), Success(session))
  }

  /**
   * `createSession(model)`: fill the slots, then configure the runtime and
   * create the session. A rejected load ends the call before the runtime is
   * configured. `load` is the call's `Bundle.load`, that is
   * `BundleLoader(config, net)`; the contract holds for any loader.
   */
  function CreateSession<S>(
    state: RuntimeState, model: seq<Byte>, config: Config, host: Host, load: Loader,
    objectUrl: Bundle.Blob -> string, create: (seq<Byte>, SessionOptions, WasmEnv) -> Result<S, string>): (o: CreateOutcome<S>)
    requires |state.slots| == 4
    ensures |o.state.slots| == 4
    ensures forall j :: 0 <= j < 4 && state.slots[j].Some? ==> o.state.slots[j] == state.slots[j]
    ensures (forall j :: 0 <= j < 4 ==> state.slots[j].Some?) ==> o.loads == [] && o.state == state
    ensures o.env.None? ==> o.result.Failure? && o.revoked == [] && |o.loads| > 0
    ensures o.env.Some? ==>
      && (forall j :: 0 <= j < 4 ==> o.state.slots[j].Some?)
      && o.loads == EmptyFiles(state.slots, 0)
      && o.env.value == WasmEnv(NumThreads(host), host.simd, config.proxyToWorker, WasmPaths(o.state.slots, objectUrl))
    ensures o.result.Success? ==>
      && o.env.Some?
      && create(model, SessionConfig, o.env.value).Success?
      && o.result.value == create(model, SessionConfig, o.env.value).value
      && o.revoked == RevokedURLs(o.env.value)
    ensures o.env.Some? && o.result.Failure? ==>
      && create(model, SessionConfig, o.env.value).Failure?
      && o.result.error == SessionFailed(SessionErrorMessage(create(model, SessionConfig, o.env.value).error))
      && o.revoked == []
  {
    var fill := FillSlots(state.slots, 0, state.store, load);
    FillSlotsLoadsInOrder(state.slots, 0, state.store, load);
    if fill.failure.Some? then
      CreateOutcome(RuntimeState(fill.slots, fill.store), fill.loads, fill.events, None, [], Failure(fill.failure.value))
    else
      var o := StartSession(fill, model, config, host, objectUrl, create);
      assert o.state.slots == fill.slots && o.loads == fill.loads;
      o
  }

  /**
   * `createSession` stops before configuring the runtime only on a rejected
   * load, with that load's error; a loader that never rejects always gets as
   * far as configuring the runtime.
   */
  lemma CreateSessionFailsByRejection<S>(
    state: RuntimeState, model: seq<Byte>, config: Config, host: Host, load: Loader,
    objectUrl: Bundle.Blob -> string, create: (seq<Byte>, SessionOptions, WasmEnv) -> Result<S, string>)
    requires |state.slots| == 4
    ensures var o := CreateSession(state, model, config, host, load, objectUrl, create);
      o.env.None? ==> RejectedBy(load, o.loads[|o.loads| - 1], o.result.error)
    ensures NeverRejects(load) ==> CreateSession(state, model, config, host, load, objectUrl, create).env.Some?
  {
    FillSlotsFailsByRejection(state.slots, 0, state.store, load);
    if NeverRejects(load) {
      FillSlotsWithoutRejection(state.slots, 0, state.store, load);
    }
  }

  /** Every slot empty: all four backend files are to be loaded, in order. */
  lemma EmptySlotsLoadEveryFile()
    ensures EmptyFiles(EmptySlots, 0) == WasmFiles
  {
    assert EmptyFiles(EmptySlots, 3) == [PlainWasm];
    assert EmptyFiles(EmptySlots, 1) == [SimdWasm, ThreadedWasm, PlainWasm];
  }

  /**
   * The first `createSession` of a page, with `Bundle.load` as the loader:
   * once the runtime is configured, all four backend files were loaded, in
   * order; a call that stops earlier fails with `Bundle.load`'s rejection of
   * the last file it loaded.
   */
  lemma FirstCreateLoadsEveryFile<S>(
    store: Bundle.Store, model: seq<Byte>, config: Config, host: Host, net: Bundle.Network,
    objectUrl: Bundle.Blob -> string, create: (seq<Byte>, SessionOptions, WasmEnv) -> Result<S, string>)
    ensures var o := CreateSession(RuntimeState(EmptySlots, store), model, config, host, BundleLoader(config, net), objectUrl, create);
      && (o.env.Some? ==> o.loads == WasmFiles)
      && (o.env.None? ==> RejectedBy(BundleLoader(config, net), o.loads[|o.loads| - 1], o.result.error))
  {
    EmptySlotsLoadEveryFile();
    CreateSessionFailsByRejection(RuntimeState(EmptySlots, store), model, config, host, BundleLoader(config, net), objectUrl, create);
  }

  /** After a successful `createSession`, a later one loads nothing and leaves storage alone. */
  lemma SecondCreateLoadsNothing<S>(
    state: RuntimeState, model: seq<Byte>, model': seq<Byte>, config: Config, host: Host, load: Loader,
    objectUrl: Bundle.Blob -> string, create: (seq<Byte>, SessionOptions, WasmEnv) -> Result<S, string>)
    requires |state.slots| == 4
    requires CreateSession(state, model, config, host, load, objectUrl, create).result.Success?
    ensures var first := CreateSession(state, model, config, host, load, objectUrl, create);
      var second := CreateSession(first.state, model', config, host, load, objectUrl, create);
      second.loads == [] && second.state == first.state
  {
  }

  /** `new ort.Tensor('float32', new Float32Array(data), shape)`. */
  function AsFloat32(t: Tensor): Tensor {
    Tensor(t.data, t.shape, "float32")
  }

  /** No input after position `i` carries the same name. */
  predicate LastWithName(inputs: seq<(string, Tensor)>, i: int)
    requires 0 <= i < |inputs|
  {
    forall j :: i < j < |inputs| ==> inputs[j].0 != inputs[i].0
  }

  /** The feeds object: `feeds[key] = new ort.Tensor(...)` for each input in order. */
  function Feeds(inputs: seq<(string, Tensor)>): (feeds: map<string, Tensor>)
    ensures feeds.Keys == set i | 0 <= i < |inputs| :: inputs[i].0
  {
    if |inputs| == 0 then map[]
    else
      var n := |inputs| - 1;
      var prior := Feeds(inputs[..n]);
      assert (set i | 0 <= i < |inputs| :: inputs[i].0) == (set i | 0 <= i < n :: inputs[..n][i].0) + {inputs[n].0} by {
        assert forall i :: 0 <= i < n ==> inputs[..n][i] == inputs[i];
      }
      prior[inputs[n].0 := AsFloat32(inputs[n].1)]
  }

  /** Of two inputs with the same name the later one is fed. */
  lemma {:induction false} FeedsLastWins(inputs: seq<(string, Tensor)>, i: nat)
    requires i < |inputs| && LastWithName(inputs, i)
    ensures Feeds(inputs)[inputs[i].0] == AsFloat32(inputs[i].1)
    decreases |inputs|
  {
    var n := |inputs| - 1;
    var init := inputs[..n];
    assert Feeds(inputs) == Feeds(init)[inputs[n].0 := AsFloat32(inputs[n].1)];
    if i < n {
      assert init[i] == inputs[i];
      assert LastWithName(init, i) by {
        forall j | i < j < |init|
          ensures init[j].0 != init[i].0
        {
          assert init[j] == inputs[j];
        }
      }
      FeedsLastWins(init, i);
      assert inputs[n].0 != inputs[i].0;
    }
  }

  /**
   * Reading back the requested outputs, in request order. A name the run did
   * not produce makes `outputData[key].data` throw, and the first such name
   * is reported.
   */
  function CollectOutputs(outputData: map<string, Tensor>, names: seq<string>): (r: Result<seq<Tensor>, Error>)
    ensures r.Success? <==> forall i :: 0 <= i < |names| ==> names[i] in outputData
    ensures r.Success? ==> |r.value| == |names| && forall i :: 0 <= i < |names| ==>
      r.value[i] == Tensor(outputData[names[i]].data, outputData[names[i]].shape, "float32")
    ensures r.Failure? ==> exists i :: 0 <= i < |names| && names[i] !in outputData
                              && r.error == MissingOutput(names[i])
                              && forall j :: 0 <= j < i ==> names[j] in outputData
  {
    if |names| == 0 then Success([])
    else if names[0] !in outputData then Failure(MissingOutput(names[0]))
    else
      var t := outputData[names[0]];
      match CollectOutputs(outputData, names[1..])
      case Failure(e) => Failure(e)
      case Success(rest) => Success([Tensor(t.data, t.shape, "float32")] + rest)
  }

  /** `session.run(feeds)`: resolves to the named output tensors or rejects. */
  type SessionRun = map<string, Tensor> -> Result<map<string, Tensor>, string>

  /** `runSession(session, inputs, outputs)`. */
  function RunSession(run: SessionRun, inputs: seq<(string, Tensor)>, outputs: seq<string>): (r: Result<seq<Tensor>, Error>)
    ensures run(Feeds(inputs)).Failure? ==> r == Failure(RunFailed(run(Feeds(inputs)).error))
    ensures r.Success? ==> run(Feeds(inputs)).Success? && |r.value| == |outputs|
    ensures r.Success? ==> forall i :: 0 <= i < |outputs| ==>
      outputs[i] in run(Feeds(inputs)).value && r.value[i].dataType == "float32"
      && r.value[i].data == run(Feeds(inputs)).value[outputs[i]].data
      && r.value[i].shape == run(Feeds(inputs)).value[outputs[i]].shape
    ensures run(Feeds(inputs)).Success? ==> r == CollectOutputs(run(Feeds(inputs)).value, outputs)
  {
    match run(Feeds(inputs))
    case Failure(reason) => Failure(RunFailed(reason))
    case Success(outputData) => CollectOutputs(outputData, outputs)
  }
}

=== FILE: schema.dfy ===
/**
 * Data shared across the library: decoded images, tensors, configuration,
 * progress events and the errors the core can raise.
 */
module Schema {
  import opened Wrappers

  /** One byte of a pixel buffer or of a downloaded file. */
  type Byte = b: int | 0 <= b < 256

  /** Decoded image data: `width * height` pixels, interleaved R, G, B, A bytes. */
  datatype Image = Image(width: nat, height: nat, data: seq<Byte>) {
    predicate Valid() {
      |data| == 4 * (width * height)
    }

    function PixelCount(): nat {
      width * height
    }
  }

  /** A tensor handed to or read back from the inference runtime. */
  datatype Tensor = Tensor(data: seq<real>, shape: seq<int>, dataType: string)

  /** A call of the progress callback: `(key, current, total)`. */
  datatype ProgressEvent = ProgressEvent(key: string, current: int, total: int)

  /** The progress callback, identified rather than executed. */
  datatype Callback = UserCallback(id: nat) | DebugLogger

  /** A value inside a fetch-options object (strings, `undefined`, nested objects). */
  datatype FetchValue = Text(s: string) | Undefined | Fields(fields: map<string, FetchValue>)

  /** The library configuration. */
  datatype Config = Config(
    debug: bool,
    proxyToWorker: bool,
    model: string,
    fetchArgs: Option<map<string, FetchValue>>,
    progress: Option<Callback>,
    publicPath: Option<string>)

  /** Every way in which an operation of the core rejects. */
  datatype Error =
    | UnknownAsset(key: string)                             // `bundle.get(key)!` was undefined
    | InvalidURL(reason: string)                            // `new URL(...)` threw
    | TransportFailed(reason: string)                       // `fetch` rejected
    | NullBody(key: string)                                 // `response.body!` was null
    | SizeMismatch(key: string, expected: nat, actual: nat) // the downloaded size check
    | SessionFailed(message: string)                        // wrapped session-creation error
    | MissingOutput(name: string)                           // `outputData[key]` was undefined
    | RunFailed(reason: string)                             // `session.run` rejected
    | ResizeRejected(width: nat, height: nat)               // resize to a zero dimension
    | NotImageData                                          // source conversion failed
}

=== FILE: utils.dfy ===
/**
 * Pixel packing, proportional geometry and URL recognition (src/utils.ts).
 */
module Utils {
  import opened Schema

  const DefaultMean: seq<real> := [128.0, 128.0, 128.0]
  const DefaultStd: seq<real> := [256.0, 256.0, 256.0]

  /** Per-channel normalisation parameters the packing can divide by. */
  predicate ValidNormalization(mean: seq<real>, std: seq<real>) {
    |mean| >= 3 && |std| >= 3 && std[0] != 0.0 && std[1] != 0.0 && std[2] != 0.0
  }

  function Normalize(b: Byte, m: real, s: real): real
    requires s != 0.0
  {
    (b as real - m) / s
  }

  /**
   * Reference definition of the planar layout, by output index `t`: the
   * first plane holds red, the second green, the third blue.
   */
  function PlanarAt(img: Image, mean: seq<real>, std: seq<real>, t: int): real
    requires img.Valid() && ValidNormalization(mean, std)
    requires 0 <= t < 3 * img.PixelCount()
  {
    var n := img.PixelCount();
    if t < n then Normalize(img.data[4 * t], mean[0], std[0])
    else if t < 2 * n then Normalize(img.data[4 * (t - n) + 1], mean[1], std[1])
    else Normalize(img.data[4 * (t - 2 * n) + 2], mean[2], std[2])
  }

  /** The whole planar tensor; its contract restates the layout pixel by pixel. */
  function Planar(img: Image, mean: seq<real>, std: seq<real>): (t: seq<real>)
    requires img.Valid() && ValidNormalization(mean, std)
    ensures |t| == 3 * img.PixelCount()
    ensures forall k :: 0 <= k < img.PixelCount() ==>
      && t[k] == Normalize(img.data[4 * k], mean[0], std[0])
      && t[k + img.PixelCount()] == Normalize(img.data[4 * k + 1], mean[1], std[1])
      && t[k + 2 * img.PixelCount()] == Normalize(img.data[4 * k + 2], mean[2], std[2])
  {
    var t := seq(3 * img.PixelCount(), t requires 0 <= t < 3 * img.PixelCount() => PlanarAt(img, mean, std, t));
    assert forall k :: 0 <= k < img.PixelCount() ==>
      && t[k] == Normalize(img.data[4 * k], mean[0], std[0])
      && t[k + img.PixelCount()] == Normalize(img.data[4 * k + 1], mean[1], std[1])
      && t[k + 2 * img.PixelCount()] == Normalize(img.data[4 * k + 2], mean[2], std[2])
    by {
      forall k | 0 <= k < img.PixelCount()
        ensures && t[k] == Normalize(img.data[4 * k], mean[0], std[0])
                && t[k + img.PixelCount()] == Normalize(img.data[4 * k + 1], mean[1], std[1])
                && t[k + 2 * img.PixelCount()] == Normalize(img.data[4 * k + 2], mean[2], std[2])
      {
        PlanarAtPlanes(img, mean, std, k);
      }
    }
    t
  }

  /** `PlanarAt` at the three plane offsets of pixel `k`. */
  lemma PlanarAtPlanes(img: Image, mean: seq<real>, std: seq<real>, k: nat)
    requires img.Valid() && ValidNormalization(mean, std)
    requires k < img.PixelCount()
    ensures PlanarAt(img, mean, std, k) == Normalize(img.data[4 * k], mean[0], std[0])
    ensures PlanarAt(img, mean, std, k + img.PixelCount()) == Normalize(img.data[4 * k + 1], mean[1], std[1])
    ensures PlanarAt(img, mean, std, k + 2 * img.PixelCount()) == Normalize(img.data[4 * k + 2], mean[2], std[2])
  {
  }

  /**
   * The packing loop as written: one pass over the interleaved bytes, `i`
   * stepping by four and `j` by one, writing three planes of stride `w * h`.
   */
  method ImageDataToFloat32Array(img: Image, mean: seq<real>, std: seq<real>) returns (r: seq<real>)
    requires img.Valid() && ValidNormalization(mean, std)
    ensures |r| == 3 * img.PixelCount()
    ensures forall k :: 0 <= k < img.PixelCount() ==>
      && r[k] == Normalize(img.data[4 * k], mean[0], std[0])
      && r[k + img.PixelCount()] == Normalize(img.data[4 * k + 1], mean[1], std[1])
      && r[k + 2 * img.PixelCount()] == Normalize(img.data[4 * k + 2], mean[2], std[2])
    ensures r == Planar(img, mean, std)
  {
    var stride := img.PixelCount();
    r := seq(3 * stride, _ => 0.0);
    var i, j := 0, 0;
    while i < |img.data|
      invariant i == 4 * j && 0 <= j <= stride
      invariant |r| == 3 * stride
      invariant forall t :: 0 <= t < j ==> r[t] == PlanarAt(img, mean, std, t)
      invariant forall t :: stride <= t < stride + j ==> r[t] == PlanarAt(img, mean, std, t)
      invariant forall t :: 2 * stride <= t < 2 * stride + j ==> r[t] == PlanarAt(img, mean, std, t)
      decreases |img.data| - i
    {
      r := r[j := Normalize(img.data[i], mean[0], std[0])];
      r := r[j + stride := Normalize(img.data[i + 1], mean[1], std[1])];
      r := r[j + stride + stride := Normalize(img.data[i + 2], mean[2], std[2])];
      i, j := i + 4, j + 1;
    }
    assert r == Planar(img, mean, std);
  }

  /** Two images that differ at most in their alpha bytes. */
  predicate SameColour(a: Image, b: Image) {
    && a.width == b.width && a.height == b.height && |a.data| == |b.data|
    && forall k :: 0 <= k < a.PixelCount() && 4 * k + 2 < |a.data| ==>
         a.data[4 * k] == b.data[4 * k] && a.data[4 * k + 1] == b.data[4 * k + 1]
         && a.data[4 * k + 2] == b.data[4 * k + 2]
  }

  /** The alpha byte of a pixel never reaches the tensor. */
  lemma PlanarIgnoresAlpha(a: Image, b: Image, mean: seq<real>, std: seq<real>)
    requires a.Valid() && b.Valid() && ValidNormalization(mean, std)
    requires SameColour(a, b)
    ensures Planar(a, mean, std) == Planar(b, mean, std)
  {
    forall t | 0 <= t < 3 * a.PixelCount()
      ensures PlanarAt(a, mean, std, t) == PlanarAt(b, mean, std, t)
    {
    }
  }

  /** Undoing the normalisation (`value * std + mean`) gives back every colour byte. */
  lemma PlanarDenormalizes(img: Image, mean: seq<real>, std: seq<real>, k: nat)
    requires img.Valid() && ValidNormalization(mean, std)
    requires k < img.PixelCount()
    ensures Planar(img, mean, std)[k] * std[0] + mean[0] == img.data[4 * k] as real
    ensures Planar(img, mean, std)[k + img.PixelCount()] * std[1] + mean[1] == img.data[4 * k + 1] as real
    ensures Planar(img, mean, std)[k + 2 * img.PixelCount()] * std[2] + mean[2] == img.data[4 * k + 2] as real
  {
    var t := Planar(img, mean, std);
    NormalizeInverse(img.data[4 * k], mean[0], std[0]);
    NormalizeInverse(img.data[4 * k + 1], mean[1], std[1]);
    NormalizeInverse(img.data[4 * k + 2], mean[2], std[2]);
  }

  lemma NormalizeInverse(b: Byte, m: real, s: real)
    requires s != 0.0
    ensures Normalize(b, m, s) * s + m == b as real
  {
  }

  /** With the default mean 128 and std 256 every tensor value lies in [-0.5, 127/256]. */
  lemma PlanarDefaultRange(img: Image)
    requires img.Valid()
    ensures forall idx :: 0 <= idx < |Planar(img, DefaultMean, DefaultStd)| ==>
      -0.5 <= Planar(img, DefaultMean, DefaultStd)[idx] <= 127.0 / 256.0
  {
  }

  function Min(a: real, b: real): real {
    if a <= b then a else b
  }

  /**
   * Aspect-preserving fit: one factor `min(maxW / w, maxH / h)` scales both
   * sides, and each product is floored. Exact arithmetic stands for the
   * double-precision original. The side with the smaller ratio is the
   * limiting one and lands exactly on its bound; a source that already fits
   * is never shrunk.
   */
  function CalculateProportionalSize(originalWidth: nat, originalHeight: nat, maxWidth: nat, maxHeight: nat): (r: (int, int))
    requires originalWidth > 0 && originalHeight > 0
    ensures 0 <= r.0 <= maxWidth && 0 <= r.1 <= maxHeight
    ensures maxWidth as real / originalWidth as real <= maxHeight as real / originalHeight as real ==>
      r.0 == maxWidth
    ensures maxHeight as real / originalHeight as real <= maxWidth as real / originalWidth as real ==>
      r.1 == maxHeight
    ensures originalWidth <= maxWidth && originalHeight <= maxHeight ==>
      originalWidth <= r.0 && originalHeight <= r.1
  {
    var factor := Factor(originalWidth, originalHeight, maxWidth, maxHeight);
    SideFacts(originalWidth, originalHeight, maxWidth, maxHeight);
    SideFacts(originalHeight, originalWidth, maxHeight, maxWidth);
    FactorSwap(originalWidth, originalHeight, maxWidth, maxHeight);
    ((originalWidth as real * factor).Floor, (originalHeight as real * factor).Floor)
  }

  /** Both sides are floored products with the one common factor. */
  lemma ProportionalSizeIsScaled(originalWidth: nat, originalHeight: nat, maxWidth: nat, maxHeight: nat)
    requires originalWidth > 0 && originalHeight > 0
    ensures CalculateProportionalSize(originalWidth, originalHeight, maxWidth, maxHeight).0
      == (originalWidth as real * Factor(originalWidth, originalHeight, maxWidth, maxHeight)).Floor
    ensures CalculateProportionalSize(originalWidth, originalHeight, maxWidth, maxHeight).1
      == (originalHeight as real * Factor(originalWidth, originalHeight, maxWidth, maxHeight)).Floor
  {
  }

  /** The common scaling factor `min(maxW / w, maxH / h)`. */
  function Factor(originalWidth: nat, originalHeight: nat, maxWidth: nat, maxHeight: nat): real
    requires originalWidth > 0 && originalHeight > 0
  {
    Min(maxWidth as real / originalWidth as real, maxHeight as real / originalHeight as real)
  }

  lemma FactorSwap(x: nat, y: nat, maxX: nat, maxY: nat)
    requires x > 0 && y > 0
    ensures Factor(y, x, maxY, maxX) == Factor(x, y, maxX, maxY)
  {
  }

  /** The facts about one side of the fit; the other side is the same with the roles swapped. */
  lemma SideFacts(x: nat, y: nat, maxX: nat, maxY: nat)
    requires x > 0 && y > 0
    ensures 0 <= (x as real * Factor(x, y, maxX, maxY)).Floor <= maxX
    ensures maxX as real / x as real <= maxY as real / y as real ==>
      (x as real * Factor(x, y, maxX, maxY)).Floor == maxX
    ensures x <= maxX && y <= maxY ==> x <= (x as real * Factor(x, y, maxX, maxY)).Floor
  {
    var factor := Factor(x, y, maxX, maxY);
    var ratioX, ratioY := maxX as real / x as real, maxY as real / y as real;
    assert 0.0 <= factor <= ratioX && (factor == ratioX || factor == ratioY);
    ScaledProduct(x as real, maxX as real, factor);
    if x <= maxX && y <= maxY {
      AtLeastOne(x as real, maxX as real);
      AtLeastOne(y as real, maxY as real);
      ScaledGrows(x as real, factor);
      FloorAtLeast(x, x as real * factor);
    }
  }

  /** A scaling by at most `bound / x` stays within `bound`, and reaches it at equality. */
  lemma ScaledProduct(x: real, bound: real, factor: real)
    requires x > 0.0 && bound >= 0.0 && 0.0 <= factor <= bound / x
    ensures 0.0 <= x * factor <= bound
    ensures factor == bound / x ==> x * factor == bound
  {
    MulMono(factor, bound / x, x);
  }

  lemma AtLeastOne(x: real, bound: real)
    requires 0.0 < x <= bound
    ensures 1.0 <= bound / x
  {
    MulMono(x, bound, 1.0 / x);
  }

  lemma ScaledGrows(x: real, factor: real)
    requires x > 0.0 && 1.0 <= factor
    ensures x <= x * factor
  {
    MulMono(1.0, factor, x);
  }

  lemma MulMono(a: real, b: real, p: real)
    requires a <= b && p > 0.0
    ensures a * p <= b * p
  {
  }

  lemma FloorAtLeast(n: int, x: real)
    ensures n as real <= x ==> n <= x.Floor
  {
  }

  lemma ProportionalSizeExamples()
    ensures CalculateProportionalSize(800, 600, 1024, 1024) == (1024, 768)
    ensures CalculateProportionalSize(1024, 1024, 1024, 1024) == (1024, 1024)
  {
    var f := Min(1024.0 / 800.0, 1024.0 / 600.0);
    assert f == 1024.0 / 800.0;
    assert 600.0 * f == 768.0;
  }

  /** The scheme characters the pattern `[a-z+]` accepts under the case-insensitive flag. */
  predicate IsSchemeChar(c: char) {
    ('a' <= c <= 'z') || ('A' <= c <= 'Z') || c == '+'
  }

  /** Length of the longest prefix of `s` made of scheme characters. */
  function SchemeLength(s: string): (n: nat)
    ensures n <= |s|
    ensures forall i :: 0 <= i < n ==> IsSchemeChar(s[i])
    ensures n < |s| ==> !IsSchemeChar(s[n])
  {
    if |s| > 0 && IsSchemeChar(s[0]) then 1 + SchemeLength(s[1..]) else 0
  }

  predicate SlashesAt(s: string, i: nat) {
    i + 2 <= |s| && s[i] == '/' && s[i + 1] == '/'
  }

  /**
   * `^(?:[a-z+]+:)?//` with the `i` flag. Because `:` is not a scheme
   * character, the only candidate scheme is the maximal scheme prefix.
   */
  predicate IsAbsoluteURL(url: string): (b: bool)
    ensures SlashesAt(url, 0) ==> b
    ensures |url| > 0 && url[0] != '/' && !IsSchemeChar(url[0]) ==> !b
    ensures b ==> '/' in url
  {
    var n := SchemeLength(url);
    SlashesAt(url, 0) || (n > 0 && n < |url| && url[n] == ':' && SlashesAt(url, n + 1))
  }

  /** The regular expression read literally: an optional `scheme:` then `//`. */
  ghost predicate MatchesAbsolutePattern(url: string) {
    || SlashesAt(url, 0)
    || exists n :: 0 < n < |url| && url[n] == ':' && SlashesAt(url, n + 1)
         && (forall i :: 0 <= i < n ==> IsSchemeChar(url[i]))
  }

  lemma IsAbsoluteURLMatchesPattern(url: string)
    ensures IsAbsoluteURL(url) <==> MatchesAbsolutePattern(url)
  {
    var m := SchemeLength(url);
    if IsAbsoluteURL(url) && !SlashesAt(url, 0) {
      assert 0 < m < |url| && url[m] == ':' && SlashesAt(url, m + 1);
    }
    if MatchesAbsolutePattern(url) && !SlashesAt(url, 0) {
      var n :| 0 < n < |url| && url[n] == ':' && SlashesAt(url, n + 1)
         && (forall i :: 0 <= i < n ==> IsSchemeChar(url[i]));
      assert n == m;
    }
  }

  lemma AbsoluteURLExamples()
    ensures IsAbsoluteURL("//cdn/x")
    ensures IsAbsoluteURL("HTTPS://x")
  {
    var https := "HTTPS://x";
    assert forall i :: 0 <= i < 5 ==> IsSchemeChar(https[i]);
    assert !IsSchemeChar(https[5]);
    assert SchemeLength(https) == 5;
    assert SlashesAt(https, 6);
  }

  lemma RelativeURLExamples()
    ensures !IsAbsoluteURL("/x")
    ensures !IsAbsoluteURL("data:x")
    ensures !IsAbsoluteURL("h2://x")
  {
    var data := "data:x";
    IsAbsoluteURLMatchesPattern(data);
    assert !SlashesAt(data, 0);
    var h2 := "h2://x";
    IsAbsoluteURLMatchesPattern(h2);
    assert !IsSchemeChar(h2[1]);
    assert !SlashesAt(h2, 0);
  }

  /**
   * An absolute string is returned unchanged; any other string is resolved
   * against the page location, which `resolve` stands for.
   */
  function EnsureAbsoluteURL(url: string, resolve: string -> string): (r: string)
    ensures IsAbsoluteURL(url) ==> r == url
    ensures !IsAbsoluteURL(url) ==> r == resolve(url)
    ensures IsAbsoluteURL(r) <==> IsAbsoluteURL(url) || IsAbsoluteURL(resolve(url))
  {
    if IsAbsoluteURL(url) then url else resolve(url)
  }

  /**
   * Applying the function twice changes nothing more than applying it once,
   * provided resolution is itself idempotent. `new URL(u, location.href).href`
   * is: its output already parses as a URL, so a second resolution returns it
   * unchanged, even when that output (`data:x`, `mailto:a`, `h2://x`) is not
   * absolute in the sense of `IsAbsoluteURL`.
   */
  lemma EnsureAbsoluteURLIdempotent(url: string, resolve: string -> string)
    requires forall u :: resolve(resolve(u)) == resolve(u)
    ensures EnsureAbsoluteURL(EnsureAbsoluteURL(url, resolve), resolve) == EnsureAbsoluteURL(url, resolve)
  {
  }
}

=== FILE: wrappers.dfy ===
/** The optional-value and outcome types shared by every module of the model. */
module Wrappers {

  /** A value that may be absent (`undefined` / `null` in the original). */
  datatype Option<+T> = None | Some(value: T)

  /** The outcome of an operation that either resolves or rejects. */
  datatype Result<+T, +E> = Success(value: T) | Failure(error: E)
}
